=== FILE: README.md ===
# Console and keyboard of a six-terminal xv6 kernel, in Dafny

This project models the console driver of an xv6 variant that multiplexes six virtual terminals onto one CGA text screen (kernel/console.c) and the keyboard decoder that feeds it (kernel/kbd.c). It also proves properties of that model.

- **Display (`Cga`).** `cgaputc` becomes a pure function from a display to an outcome. The display holds the physical screen and its hardware cursor, the visible terminal `tidx` and the output target `tminor`. Each of the six terminals keeps its own cell buffer, cursor, attribute word and ANSI escape parser: `ESC [`, decimal parameters, `;` and `m` select colours from a 20-entry table. Bytes 151-156 switch the visible terminal. The outcome is a new display, the source's panic, or `Undefined` when an SGR parameter would read the colour table out of bounds.
- **Properties of the display (`CgaProps`, `Escape`).** Properties of one byte and of byte strings through the display. `Escape` abstracts the escape parser so that multi-byte sequences can be reasoned about without the screen.
- **Line discipline (`LineDiscipline`).** Each terminal has a 128-byte input ring with unbounded read, write and edit indices. It covers kill-line, rubout, ordinary bytes with commit on newline, ^D or a full ring, and the reader's loop with its end-of-file rule.
- **Formatting (`Format`).** `printint` and `cprintf`, with the text they hand to `consputc`.
- **Keyboard (`Kbd`).** `kbdgetc`'s shift-state machine over an abstract layout: the kbd.h tables and modifier bits are parameters.
- **Console (`Console`).** `consputc`, `consolewrite`, `consoleintr`, `consoleread` and `cprintf` on one console value. That value holds the display, the six rings, the trace sent to the serial line, and whether the machine is still running.

Port I/O becomes data:
- the keyboard's status and data ports are an `Option<Byte>`;
- `getc` is the sequence of codes it returns;
- the serial line is a trace of codes;
- the hardware cursor is a field of the display.

Behaviours of the code worth noting, all kept in the model:
- **An unexpected byte inside `ESC [`** is dropped, and the sequence stays open with its parameter (`CgaProps.DroppedByte`). It does not return the parser to idle. After ESC, any byte other than `[` acts as it would without the ESC, which is forgotten; a switch code leaves it pending (`CgaProps.EscForgotten`).
- **SGR 30-39** replace bits 8-11 of the attribute (the foreground nibble of the high byte), not the low byte.
- **The scroll check** moves a cursor back a row as soon as it reaches the start of row 24, so from a display whose cursors are above row 24 no cursor ever rests on row 24 (`CgaProps.StaysSettled`). It zeroes only from the moved-back cursor to the end of row 23; row 24 itself is not cleared (`Cga.Scroll`).
- **A terminal switch** blanks only the cells below the old hardware cursor. It copies only the new terminal's cells below its cursor, and leaves the rest of the screen as it was (`CgaProps.SwitchShows`).
- **A rubout** moves a terminal's own cursor back even across a row boundary. It stops only at cell 0.
- **The panic check** accepts a cursor equal to 80×25, not only below it.
- **`consoleread`** reads the ring of the device minor, but `consoleintr` fills the ring of the visible terminal. The model keeps both choices.
- **SGR 47** ("white background") clears the background and sets the foreground to bright white. Its table entry lies in the foreground nibble (`CgaProps.WhiteBackgroundQuirk`). The model keeps this as the code has it.

## Model

| member | source | states |
|---|---|---|
| Cga.Boot | kernel/console.c:145-157 | the statically initialised display is well formed, and settled when the firmware's cursor is above row 24; it shows and targets terminal 0, and every terminal starts empty at cell 0 in light grey on black with an idle parser |
| Cga.MoveAt | kernel/console.c:243 | the `memmove` of a cell buffer: cells in the destination window come from the source window, all others are unchanged |
| Cga.FillAt | kernel/console.c:245 | the `memset` of a cell buffer: cells in the window hold the value, all others are unchanged |
| Cga.Scroll | kernel/console.c:242-252 | below row 24 nothing changes; from row 24 the cursor moves back one row; at the start of row 24 the buffer is rows 1-23 moved up, a zero row 23, and row 24 as it was |
| Cga.ApplySgr | kernel/console.c:207-218 | a parameter has a result exactly when it is 0 or in 30-49 (otherwise the table read is out of bounds), and 0 restores light grey on black |
| Cga.SgrMeaning | kernel/console.c:211-218 | 30-39 replace the foreground nibble with the table entry and keep every other bit; 40-49 replace the background nibble and keep the character bits; every background parameter but 47 also keeps the foreground |
| Cga.FilterNibbles | kernel/console.c:131-139 | foreground table entries occupy only the foreground nibble, background entries only the background nibble, except entry 17 which sits in the foreground nibble |
| Cga.Switch | kernel/console.c:162-180 | a switch code makes terminal k both visible and targeted, keeps every terminal's own state and keeps the display well formed |
| Cga.Feed | kernel/console.c:186-233 | a newline, rubout, sequence byte or printed byte never panics, keeps the visible and target terminals, leaves every other terminal untouched and keeps cursors within 0..2000 |
| Cga.Finish | kernel/console.c:238-259 | panics exactly when a cursor is off the screen; otherwise each cursor moves back a row exactly when it reached row 24, and other terminals are untouched |
| Cga.Interpret | kernel/console.c:162-233 | a byte fails exactly when it closes an SGR parameter the table cannot serve; a switch code targets the chosen terminal, any other byte keeps the visible and target terminals; only the target terminal changes |
| Cga.Step | kernel/console.c:141-260 | from any display with cursors on screen, `cgaputc` never panics, fails only on an out-of-table SGR parameter, keeps the hardware cursor and the target's cursor at most at the start of row 24, and changes no terminal but the target |
| Cga.PutCAsWritten | kernel/console.c:141-260 | `cgaputc` as written, with the cursor cell of the physical screen painted in the target's colours; it never panics |
| Cga.PutC | kernel/console.c:141-260 | `cgaputc` with the cursor cell painted only for the visible terminal keeps the display well formed |
| Cga.Run | kernel/console.c:389-390 | feeding bytes in turn never panics and keeps the display well formed |
| CgaProps.StaysSettled | kernel/console.c:238-252 | from a display whose cursors are above row 24, every byte keeps them there, so the panic at lines 238-239 is unreachable |
| CgaProps.NextRowBound | kernel/console.c:189-190 | a newline from above row 24 moves to a later row start, at most the start of row 24 |
| CgaProps.FeedNear | kernel/console.c:186-233 | from a settled display no byte moves a cursor past the start of row 24 |
| CgaProps.FinishSettles | kernel/console.c:238-252 | the scroll check settles cursors that are at most at the start of row 24 |
| CgaProps.RunSettles | kernel/console.c:238-252 | any byte string keeps every cursor above row 24 |
| CgaProps.PrintStores | kernel/console.c:225-229 | a printable byte is stored at the target's cursor in the target's colours, the cursor advances (or scrolls back a row), the next cell shows the cursor blank, and the visible screen gets the same glyph when the target is visible |
| CgaProps.BackgroundIsolated | kernel/console.c:226-228 | a byte for a hidden terminal leaves the physical screen and hardware cursor exactly as they were (corrected cursor drawing) |
| CgaProps.CursorCellLeaks | kernel/console.c:258 | as written, a printed byte, newline or rubout for a hidden terminal whose colours differ changes the visible screen |
| CgaProps.HiddenPaintsOnlyCursor | kernel/console.c:254-259 | as written, a byte for a hidden terminal changes the physical screen only at the hardware cursor, which gets a blank in the target's colours, and never moves the hardware cursor |
| CgaProps.HiddenFeed | kernel/console.c:186-233 | a newline, rubout or printed byte for a hidden terminal leaves the screen, hardware cursor and target colours alone |
| CgaProps.UnguardedPaints | kernel/console.c:258 | as written, the scroll check paints the hardware cursor's cell with the target's blank |
| CgaProps.BlankDistinct | kernel/console.c:258-259 | blanks in two different attributes with a clear low byte are different cells |
| CgaProps.NewlineAdvances | kernel/console.c:187-191 | a newline moves the target's cursor to the next row start (row 23 after a scroll) and blanks that cell, keeps colours and sequence state, and clears a pending ESC |
| CgaProps.NewlineCursor | kernel/console.c:187-189 | a newline to the visible terminal moves the hardware cursor to a row start |
| CgaProps.FinishTarget | kernel/console.c:238-259 | the scroll check keeps the target's parser and colours and blanks its cursor cell; a cursor at the start of row 24 moves back to row 23 |
| CgaProps.BackspaceRetreats | kernel/console.c:192-197 | a rubout moves the target's cursor back one cell but not below 0, keeps colours and sequence state, and moves the hardware cursor likewise when visible |
| CgaProps.DroppedByte | kernel/console.c:203-224 | inside `ESC [` a byte that is not a digit, `;`, `m` or a control is dropped: nothing is stored, no cursor moves, the sequence stays open |
| CgaProps.DigitAccumulates | kernel/console.c:205-206 | inside `ESC [` a digit extends the parameter in decimal without moving a cursor |
| CgaProps.SgrApplied | kernel/console.c:207-223 | `;` or `m` applies the parameter, clears it, keeps the sequence open for `;` and closes it for `m` |
| CgaProps.EscForgotten | kernel/console.c:183-185 | a pending ESC changes the effect of no byte but `[` and the switch codes |
| CgaProps.FeedIgnoresEsc | kernel/console.c:186-233 | apart from `[`, the bytes past the ESC test never read the pending ESC |
| CgaProps.EscPends | kernel/console.c:183-185 | an ESC only raises the target's pending flag and moves no cursor |
| CgaProps.CsiOpens | kernel/console.c:199-200 | `[` right after ESC opens a sequence, keeping colours and parameter |
| CgaProps.SwitchShows | kernel/console.c:162-180 | a switch to another terminal shows its cells below its cursor, blanks the old screen below the old cursor in the old colours, keeps the cells beyond both cursors, and puts the hardware cursor at the new terminal's cursor |
| CgaProps.SwitchScreen | kernel/console.c:166-178 | the screen after a switch holds the new terminal's cells below its cursor, blanks in the old colours up to the old cursor, and the old screen beyond both |
| CgaProps.FinishInPlace | kernel/console.c:238-259 | with both cursors above row 24 the scroll check moves nothing and only draws the blank at the target's cursor, and at the hardware cursor when the target is visible |
| CgaProps.SwitchToSelf | kernel/console.c:166 | a switch to the terminal already visible and targeted changes nothing but the cursor blanks |
| CgaProps.CursorStaysDrawn | kernel/console.c:254-259 | (corrected cursor drawing) the visible terminal's cursor cell keeps showing a blank in its colours after every byte |
| CgaProps.WhiteBackgroundQuirk | kernel/console.c:215-217 | SGR 47 yields the character bits with a bright white foreground and a black background |
| CgaProps.RunAppend | kernel/console.c:389-390 | feeding two strings in turn is feeding their concatenation |
| Escape.QuietStep | kernel/console.c:183-232 | an ESC, or a byte inside `ESC [`, does to the target's parser exactly what the abstract parser does, fails exactly when it does, and moves no cursor |
| Escape.QuietRun | kernel/console.c:183-232 | a string the abstract parser accepts runs through the display without moving a cursor or touching another terminal, ending in the parser's state |
| Escape.ParsedRun | kernel/console.c:183-232 | a string the parser takes to a state runs through the display without moving a cursor and leaves the target terminal in that state |
| Escape.OpenParse | kernel/console.c:199-200 | the parser takes `ESC [` to an open sequence |
| Escape.SequenceOpens | kernel/console.c:183-200 | `ESC [` opens a sequence on the display and keeps colours and parameter |
| Escape.ResetSequence | kernel/console.c:207-209 | with no parameter digits pending, `ESC [ 0 m` restores the default colours from any attribute and leaves the parser idle (pending digits would be kept by `[` and extended) |
| Escape.TwoDigitParse | kernel/console.c:205-223 | two digits and `m` apply the two-digit parameter |
| Escape.TwoDigitParam | kernel/console.c:205-223 | on the display, two digits and `m` inside a sequence apply the two-digit parameter and close the sequence |
| Escape.RedAttr | kernel/console.c:211-213 | parameter 31 keeps all but the foreground nibble and sets table entry 1, red |
| Escape.RedParse | kernel/console.c:199-223 | the parser takes `ESC [ 3 1 m` to the red foreground |
| Escape.RedSequence | kernel/console.c:199-223 | on the display `ESC [ 3 1 m` selects red and keeps the background |
| Escape.RedForeground | kernel/console.c:199-228 | after `ESC [ 3 1 m` the next character is stored red on the old background and the cursor advances |
| LineDiscipline.EmptyRing | kernel/console.c:278-284 | the zeroed ring is well formed, empty, and has no newline pending |
| LineDiscipline.Slice | kernel/console.c:323 | the bytes at unbounded indices are read modulo the buffer size |
| LineDiscipline.KillLine | kernel/console.c:307-313 | kill-line rubs out back to the commit point or to just after a newline, passes no newline, changes nothing else, and echoes one rubout per byte |
| LineDiscipline.KillLineClears | kernel/console.c:307-313 | with no newline pending, kill-line rubs out the whole uncommitted line |
| LineDiscipline.Rubout | kernel/console.c:314-319 | rubout removes one uncommitted byte and echoes one rubout, or does nothing on an empty line |
| LineDiscipline.Insert | kernel/console.c:320-330 | NUL and a full ring are ignored; otherwise the byte (CR read as newline) is stored at the edit index, echoed, and commits the line exactly on newline, ^D or a full ring |
| LineDiscipline.InsertPending | kernel/console.c:321-324 | a byte that does not commit leaves what readers see unchanged |
| LineDiscipline.InsertCommits | kernel/console.c:321-328 | a committing byte hands readers everything typed since the read index, followed by itself |
| LineDiscipline.InsertKeepsNoPending | kernel/console.c:320-330 | an inserted byte keeps the uncommitted line free of newlines |
| LineDiscipline.InsertKeepsUnread | kernel/console.c:320-330 | an inserted byte never changes the unread bytes, it may only extend them |
| LineDiscipline.Edit | kernel/console.c:302-331 | one byte of the line discipline keeps the ring well formed, never moves the read index and never moves the commit point back |
| LineDiscipline.EditKeepsCommitted | kernel/console.c:302-331 | editing only extends the unread bytes and keeps the uncommitted line free of newlines |
| LineDiscipline.Type | kernel/console.c:296-332 | bytes typed in turn keep the ring well formed and never move the read index |
| LineDiscipline.TypeAppend | kernel/console.c:296-332 | typing two strings in turn is typing their concatenation, with the echoes concatenated |
| LineDiscipline.TypeOrdinary | kernel/console.c:320-330 | ordinary bytes typed into a ring with room are appended to the uncommitted line and echoed, and commit nothing |
| LineDiscipline.OrdinaryStep | kernel/console.c:320-330 | one ordinary byte is stored, echoed and left uncommitted |
| LineDiscipline.InsertAppends | kernel/console.c:323 | a stored byte extends the typed bytes by itself |
| LineDiscipline.NewlineCommits | kernel/console.c:322-328 | a newline after pending bytes commits them with it and echoes a newline |
| LineDiscipline.TypedLineCommits | kernel/console.c:320-328 | a line typed into an idle ring and ended with newline becomes exactly the unread bytes, echoed as typed |
| LineDiscipline.Scan | kernel/console.c:351-373 | the reader's pass copies only bytes that are not ^D, passes a newline only as its last byte, and stops at the first exit that applies |
| LineDiscipline.ScanUnique | kernel/console.c:351-373 | any pass satisfying the loop's exit conditions is the one `Scan` computes |
| LineDiscipline.Consume | kernel/console.c:351-373 | a pass copies the unread bytes from the read index, at most the count wanted, none of them ^D and none but the last a newline, stopping when the count is reached, after a newline, at a ^D or when nothing is left; it advances past them, and also consumes a ^D only when nothing was copied in this call |
| LineDiscipline.EofAfterBytes | kernel/console.c:360-367 | bytes followed by ^D are returned first and the next read returns nothing and consumes the ^D |
| LineDiscipline.ReadsOneLine | kernel/console.c:366-372 | a reader wanting at least a line takes exactly one committed line, up to and including its newline |
| LineDiscipline.TypedLineIsRead | kernel/console.c:320-373 | a line typed and then read is returned exactly, newline included |
| LineDiscipline.OrdinaryLine | kernel/console.c:320-330 | ordinary bytes and a newline form one line without ^D |
| LineDiscipline.SliceJoin | kernel/console.c:323 | adjacent ranges of the ring join |
| LineDiscipline.SlicePrefix | kernel/console.c:323 | a range of the ring is a prefix of any longer range from the same start |
| Format.Signed | kernel/console.c:28 | the argument word read as a 32-bit `int` lies in the `int` range and agrees with the word modulo 2^32 |
| Format.DigitChar | kernel/console.c:30 | `digits[d]` is a decimal digit or a lower-case hex letter |
| Format.DigitValue | kernel/console.c:30 | a character read back as a digit is the `digits` entry of that value |
| Format.Magnitude | kernel/console.c:35-38 | the value printed is minus the signed value for a negative `%d` and the unsigned word otherwise, and it is below 2^32 |
| Format.NumeralValue | kernel/console.c:41-43 | reading back the digits of a number gives the number |
| Format.NumeralLength | kernel/console.c:31 | a number below base^width has at most width digits |
| Format.NumeralDigits | kernel/console.c:41-43 | every character of a numeral is a digit character, `0`-`9` or `a`-`f` |
| Format.IntText | kernel/console.c:27-50 | `printint` prints a nonempty text |
| Format.IntTextRoundTrip | kernel/console.c:27-50 | `%d` prints text that reads back as the signed value, `%x` text that reads back as the unsigned value |
| Format.IntTextFits | kernel/console.c:31 | the text of any argument fits the 16-byte buffer: at most 11 characters in decimal and 9 in hex |
| Format.NumeralPeel | kernel/console.c:41-43 | the last digit of a nonzero number is `digits[x % base]` after the digits of `x / base` |
| Format.PeelStep | kernel/console.c:41-43 | one pass of the digit loop moves the last digit of the numeral onto the reversed buffer |
| Format.FillDigits | kernel/console.c:35-46 | the buffer filled by the do-while loop and the sign holds the printed text backwards |
| Format.EmitBackwards | kernel/console.c:48-49 | emitting the buffer from its last byte down gives the buffer reversed: the j-th byte sent is the byte at length-1-j |
| Format.PrintInt | kernel/console.c:27-50 | `printint` emits exactly the text of its argument in the base with an optional sign |
| Format.ReverseSnoc | kernel/console.c:48-49 | reversing puts a last element first |
| Format.ReverseIndex | kernel/console.c:48-49 | element i of a reversal is element length-1-i of the original |
| Format.SignExtend | kernel/console.c:87-88 | a `char` passed to `consputc` lies in -128..127 and has the byte's value modulo 256 |
| Format.CString | kernel/console.c:84-88 | `%s` prints the sign-extended bytes before the first NUL, and never reads past a NUL |
| Format.Expand | kernel/console.c:77-89 | a conversion prints something exactly when its argument is of the kind it reads |
| Format.Render | kernel/console.c:66-99 | `cprintf`'s loop prints exactly the text of the recursive definition, and reports whether it finished the format |
| Format.Verbatim | kernel/console.c:69-71 | a format without `%` and NUL is printed as it stands |
| Format.ExtraArgsIgnored | kernel/console.c:67-99 | arguments beyond those the format converts are never read |
| Format.InterpRange | kernel/console.c:68-99 | `cprintf` only hands `consputc` character codes, never the rubout code |
| Kbd.CharCode | kernel/kbd.c:13-15 | each of the eight modifier combinations selects a full 256-entry map |
| Kbd.SwapCase | kernel/kbd.c:40-45 | caps lock swaps the case of ASCII letters and leaves everything else |
| Kbd.SwapCaseTwice | kernel/kbd.c:40-45 | swapping case twice changes nothing |
| Kbd.GetC | kernel/kbd.c:6-47 | no waiting byte gives -1 and keeps the state; E0 gives 0 and sets the E0 bit; a release gives 0 and clears the key's bits and E0; a press gives a code in 0..255 |
| Kbd.ReleasedKey | kernel/kbd.c:28 | a release's table index keeps the high bit exactly after an E0 prefix |
| Kbd.PressedKey | kernel/kbd.c:31-35 | a press's table index gains the high bit exactly after an E0 prefix |
| Kbd.Press | kernel/kbd.c:31-46 | a press gives a code in 0..255 and the shift state with the E0 prefix consumed, modifiers set and toggles flipped |
| Kbd.CapsAdjust | kernel/kbd.c:40-45 | caps lock keeps a table entry in 0..255 |
| Kbd.PressChoosesMap | kernel/kbd.c:13-15 | with the kbd.h bits the map follows the modifiers after the press: control wins, alt counts only alone, then shift, else the plain map |
| Kbd.PressReleaseRestores | kernel/kbd.c:26-38 | pressing and releasing a plain modifier key returns the shift state to where it was |
| Kbd.PlainPress | kernel/kbd.c:37 | pressing a plain modifier sets its bits |
| Kbd.PressSets | kernel/kbd.c:31-38 | without an E0 prefix a press sets and flips the bits of the key itself |
| Kbd.PlainRelease | kernel/kbd.c:26-30 | releasing a plain modifier clears its bits |
| Kbd.ReleaseClears | kernel/kbd.c:28-29 | without an E0 prefix a release clears the bits of the key with its high bit dropped |
| Kbd.ToggleOnce | kernel/kbd.c:26-38 | pressing and releasing a toggle key flips its toggle bits |
| Kbd.TogglePress | kernel/kbd.c:38 | pressing a toggle key flips its bits |
| Kbd.ToggleRelease | kernel/kbd.c:29 | releasing a toggle key keeps the shift state |
| Kbd.ToggleTwice | kernel/kbd.c:26-38 | tapping caps lock twice returns the shift state to where it was |
| Kbd.EscapeThenPress | kernel/kbd.c:23-35 | an E0 prefix makes exactly the next press read the escaped half of the tables, and that press consumes it |
| Kbd.EscapedPress | kernel/kbd.c:31-35 | the press after an E0 prefix reads the escaped half and clears the E0 bit |
| Console.Boot | kernel/console.c:278-284 | the console after initialisation is well formed and running, has sent nothing, and has no unread input |
| Console.PutCons | kernel/console.c:262-276 | (corrected cursor drawing) once halted nothing changes; otherwise the serial line gets the code (BACKSPACE as back, space, back), and the console stays up exactly when the display completes the byte |
| Console.PutAll | kernel/console.c:389-390 | codes sent in turn never touch input, and a halted console stays unchanged |
| Console.PutAllRuns | kernel/console.c:389-390 | codes sent in turn reach the display as the display's own run of them, and the console stays up exactly while every byte completes |
| Console.PutAllTrace | kernel/console.c:270-274 | while the console is up, the serial line gets every code in order |
| Console.PlainTrace | kernel/console.c:270-274 | without BACKSPACE the serial line gets the codes themselves |
| Console.PutBytes | kernel/console.c:389-390 | the loop of `consolewrite` sends every byte through `consputc` in order |
| Console.ConsoleWrite | kernel/console.c:380-401 | (corrected cursor drawing) `consolewrite` returns the count, sends the serial line the bytes, runs them through the display on the minor's terminal, and restores the target to the visible terminal |
| Console.WriteRuns | kernel/console.c:389-390 | written bytes reach the display as a run and the serial line unchanged |
| Console.WriteBytes | kernel/console.c:389-390 | the write loop leaves the input rings alone, keeps the machine running exactly when the run of the bytes completes, and then the display is the run's result and the serial line has the bytes appended |
| Console.HiddenWriteInvisible | kernel/console.c:385-390 | (corrected cursor drawing) a write to a hidden terminal that switches nothing leaves the physical screen, its cursor and the visible terminal alone |
| Console.HiddenRun | kernel/console.c:226-228 | (corrected cursor drawing) bytes for a hidden target keep the screen, hardware cursor and visible terminal |
| Console.IntrStep | kernel/console.c:296-331 | a switch code changes the visible terminal and no input; ^P changes nothing; no code moves a read index |
| Console.IntrKeepsUnread | kernel/console.c:296-331 | an interrupt only extends every terminal's unread input |
| Console.IntrAdvances | kernel/console.c:296-331 | read indices that have not moved and unread input that has only grown since the loop began stay so after one more code |
| Console.Interrupt | kernel/console.c:296-331 | one pass of the interrupt loop is `IntrStep` on the code (switch, ^P, or edit and echo), keeps the console well formed, moves no read index from where the loop began and only extends unread input |
| Console.ConsoleIntr | kernel/console.c:288-337 | `consoleintr` leaves the console that handling every code in turn gives (`IntrAll`), asks for a process listing exactly when ^P arrived, moves no read index, and only extends unread input |
| Console.IntrAll | kernel/console.c:296-332 | handling the codes in turn keeps the console well formed and changes nothing once the machine has stopped |
| Console.ReadRing | kernel/console.c:348-373 | the reader's loop copies and consumes what `Consume` describes, with the ^D rule keyed on whether bytes were already copied |
| Console.CopyBytes | kernel/console.c:351-372 | the copying loop takes bytes from the read index, at most the count wanted, none of them ^D and none but the last a newline, and stops exactly when the count is reached, after a newline, before a ^D, or when nothing committed is left |
| Console.ReadExit | kernel/console.c:351-373 | at every exit of the loop, the bytes and ring are those `Consume` describes |
| Console.ConsoleRead | kernel/console.c:340-378 | `consoleread` takes the pass from the minor's ring, returns the count copied, reports -1 when killed while starved, and otherwise sleeps when starved |
| Console.Cprintf | kernel/console.c:53-103 | a null format halts the machine without output, and a halted console stays unchanged |
| Console.CprintfTrace | kernel/console.c:64-99 | a `cprintf` that leaves the console up finished its format, sent the serial line exactly the formatted text, and the display the same codes |

## Left out

- Port I/O: the CRT index and data ports, the keyboard ports and the serial line are data or traces. The physical screen's memory is a field.
- Locks, `sleep`, `wakeup`, `iunlock` and `ilock` are not modelled. `consoleread` returns `Asleep` where the source would sleep, and a later call with fewer bytes wanted and the same target resumes it.
- The panic message and backtrace that `panic` prints are not modelled. A panic sets the mode `Halted`, and every later console operation leaves the console unchanged. The source still lets `consoleintr` switch terminals and schedule a process listing before its first echo.
- `procdump` is left out. `consoleintr` reports only whether it is due.
- `consoleinit` and `kbdintr` are one-line glue. Device-table registration is not part of this model.
- The contents of kbd.h (the scancode maps and modifier bits) are not part of this model; they are a `Layout` parameter. `PressChoosesMap` states the map choice for the kbd.h bit values.
- Kbd.GetC: the shift state is 8 bits wide, not 32, because every kbd.h modifier bit lies in the low byte and no operation sets a higher bit.
- LineDiscipline.Insert: the ring indices are unbounded naturals. The source's 32-bit `uint` indices wrap only after 2^32 bytes, and since 128 divides 2^32 the wrap does not change any slot.
- Console.ConsoleRead: the killed check happens only when the ring is starved, as in the source. A negative `n` is not modelled, because the caller passes a byte count.
- Console.ConsoleWrite: the race on `tminor`, when another `consolewrite` or interrupt runs between setting it and the lock, is not modelled. The console lock serialises callers.
- Console.ConsoleIntr: on a machine that has stopped, every code leaves the console unchanged and a ^P still reports a listing. In the source, `consputc` spins forever after a panic (lines 265-269), so a key that echoes never returns and `procdump` (lines 335-336) is never reached; the model does not follow that spin.
- Console.Cprintf: a conversion with no argument, or with an argument of the other kind, reads whatever the stack holds. The model stops there and marks the console `Undefined` instead of printing arbitrary text.
- Console.PutCons: `consputc`, `consolewrite`, `consoleintr` and `cprintf` are modelled over the corrected cursor drawing `Cga.PutC`, not over `cgaputc` as written (`Cga.PutCAsWritten`, see Findings). On the Findings input the source repaints terminal 0's cursor cell and the model does not.
- CursorStaysDrawn: holds for the corrected drawing only. As written, a byte for a hidden terminal repaints the visible cursor cell in the target's colours (`CgaProps.CursorCellLeaks`); what does hold as written is `CgaProps.HiddenPaintsOnlyCursor`.
- HiddenWriteInvisible: holds for the corrected drawing only. As written, a write to a hidden terminal may change the visible screen at the hardware cursor cell, and nowhere else (`CgaProps.HiddenPaintsOnlyCursor`).
- HiddenRun: holds for the corrected drawing only, for the same reason as HiddenWriteInvisible.
- Cga.Feed: the SGR parameter accumulator is an unbounded natural. In the source it is a 32-bit `int` (`t[6]`, lines 149 and 206), so a run of digits past 2147483647 overflows, which C leaves undefined. The model reports `Undefined` only when `;` or `m` closes the sequence with an out-of-table value, and not at the overflowing digit.
- Cga.PutC: an SGR parameter outside 0 and 30-49 reads the colour table out of bounds, which C leaves undefined. The outcome is `Undefined` rather than a value.

## Findings

| source | as written | input that shows it | evidently intended | confidence | as-written member | corrected member |
|---|---|---|---|---|---|---|
| kernel/console.c:258 | the blank at the hardware cursor is drawn as `' ' \| clrs[tminor]` even when the target `tminor` is not the visible terminal | terminal 0 visible in light grey on black with its cursor drawn; write `ESC [ 4 1 m` and then `x` to minor 2: the cell at terminal 0's cursor on the visible screen becomes a blank on red | output to a hidden terminal goes only to its own buffer (the comment on line 129): the cursor cell of the physical screen is drawn in the visible terminal's colours, or not at all when the target is hidden | not executed | Cga.PutCAsWritten, CgaProps.CursorCellLeaks | Cga.PutC, CgaProps.BackgroundIsolated |

=== FILE: base.dfy ===
/** Small shared vocabulary: an optional value and the byte type. */
module Base {

  /** A value that may be absent (a null pointer, an empty status port). */
  datatype Option<+T> = None | Some(value: T)

  /** An unsigned 8-bit value, as the source's `uchar` and port reads. */
  type Byte = x: int | 0 <= x < 256

  /** Concatenation groups either way. */
  lemma AppendAssoc<T>(a: seq<T>, b: seq<T>, c: seq<T>)
    ensures (a + b) + c == a + (b + c)
  {
  }

  /** A prefix one longer is the prefix with the next element appended. */
  lemma TakeSnoc<T>(s: seq<T>, i: nat)
    requires i < |s|
    ensures s[..i + 1] == s[..i] + [s[i]]
  {
  }
}

=== FILE: cga.dfy ===
/** The CGA text display shared by six virtual terminals (`cgaputc` in
    kernel/console.c). Every terminal keeps its own cell buffer, cursor,
    attribute word and escape parser; terminal `tidx` is the one mirrored on
    the physical screen `crt`, and output goes to terminal `tminor`. */
module Cga {
  import opened Base

  const Cols := 80
  const Rows := 25
  const Cells := Rows * Cols
  /** First cell of row 24: a cursor that reaches it scrolls its buffer. */
  const ScrollLimit := 24 * Cols
  const Terminals := 6

  /** The out-of-band code the console passes for a rubout. */
  const Backspace := 0x100
  const Esc := 0x1b
  /** Codes 151..156 make terminal 0..5 the visible one. */
  const FirstSwitch := 151
  const LastSwitch := 156

  const Newline := 10
  const Space := 32
  const Semicolon := 59
  const LeftBracket := 91
  const DigitZero := 48
  const DigitNine := 57
  const LetterM := 109

  /** Light grey on black. */
  const DefaultAttr: bv16 := 0x0700

  /** The colour table: entries 0-9 serve SGR parameters 30-39 (foreground),
      entries 10-19 serve parameters 40-49 (background). */
  const Filter: seq<bv16> := [
    0x0000, 0x0400, 0x0200, 0x0e00, 0x0100, 0x0500, 0x0300, 0x0f00, 0x0000, 0x0f00,
    0x0000, 0x4000, 0x2000, 0x6000, 0x1000, 0x5000, 0x3000, 0x0f00, 0x0000, 0x0000]

  /** One virtual terminal: its cells, its own cursor `pos`, its attribute
      word, and its escape parser — `esc` (the previous byte was ESC), `csi`
      (inside `ESC [`) and the parameter accumulated so far. */
  datatype Vt = Vt(cells: seq<bv16>, pos: int, attr: bv16, esc: bool, csi: bool, param: nat)

  /** The physical screen with its hardware cursor, the visible terminal
      `tidx`, the output target `tminor`, and the six terminals. */
  datatype Display = Display(crt: seq<bv16>, pos: int, tidx: nat, tminor: nat, vts: seq<Vt>)

  /** The end of one `cgaputc`: a new display, the source's panic on a
      cursor out of range, or a colour-table read out of bounds (undefined
      in the source) for the given SGR parameter. */
  datatype Outcome = Done(d: Display) | Panic | Undefined(param: nat)

  predicate IsSwitch(c: int) {
    FirstSwitch <= c <= LastSwitch
  }

  predicate IsDigit(c: int) {
    DigitZero <= c <= DigitNine
  }

  /** A character with an attribute, as a 16-bit screen cell. */
  function Glyph(c: int, a: bv16): bv16 {
    (c % 256) as bv16 | a
  }

  function Blank(a: bv16): bv16 {
    Glyph(Space, a)
  }

  /** The first cell of the next row. */
  function NextRow(p: int): int {
    p + Cols - p % Cols
  }

  /** The buffers have their fixed sizes and the indices name terminals. */
  predicate Shaped(d: Display) {
    && |d.crt| == Cells
    && |d.vts| == Terminals
    && d.tidx < Terminals
    && d.tminor < Terminals
    && forall k :: 0 <= k < Terminals ==> |d.vts[k].cells| == Cells
  }

  /** Every cursor is on the 80x25 screen. */
  predicate Wf(d: Display) {
    && Shaped(d)
    && 0 <= d.pos < Cells
    && forall k :: 0 <= k < Terminals ==> 0 <= d.vts[k].pos < Cells
  }

  /** Every cursor is above row 24, the state every step keeps. */
  predicate Settled(d: Display) {
    && Wf(d)
    && d.pos < ScrollLimit
    && forall k :: 0 <= k < Terminals ==> d.vts[k].pos < ScrollLimit
  }

  /** The hardware cursor shows a blank in the visible terminal's colours. */
  predicate CursorDrawn(d: Display)
    requires Wf(d)
  {
    d.crt[d.pos] == Blank(d.vts[d.tidx].attr)
  }

  /** A terminal as the static initialisers leave it. */
  function BootVt(): (v: Vt)
    ensures |v.cells| == Cells && forall i :: 0 <= i < Cells ==> v.cells[i] == 0
    ensures v.pos == 0 && v.attr == DefaultAttr
    ensures !v.esc && !v.csi && v.param == 0
  {
    Vt(seq(Cells, _ => 0), 0, DefaultAttr, false, false, 0)
  }

  /** The display before the first byte: terminal 0 visible and targeted,
      the screen and cursor as the firmware left them. */
  function Boot(screen: seq<bv16>, cursor: int): (d: Display)
    requires |screen| == Cells && 0 <= cursor < Cells
    ensures Wf(d) && d.tidx == 0 && d.tminor == 0
    ensures cursor < ScrollLimit ==> Settled(d)
    ensures forall k :: 0 <= k < Terminals ==> d.vts[k] == BootVt()
  {
    Display(screen, cursor, 0, 0, seq(Terminals, _ => BootVt()))
  }

  /** `memmove(s + dst, s + src, n)` on a cell buffer. */
  function Move(s: seq<bv16>, dst: nat, src: nat, n: nat): (r: seq<bv16>)
    requires dst + n <= |s| && src + n <= |s|
    ensures |r| == |s|
  {
    s[..dst] + s[src..src + n] + s[dst + n..]
  }

  /** Cells in the destination window come from the source window, all
      others are unchanged. */
  lemma MoveAt(s: seq<bv16>, dst: nat, src: nat, n: nat)
    requires dst + n <= |s| && src + n <= |s|
    ensures forall i :: 0 <= i < |s| ==> Move(s, dst, src, n)[i] == if dst <= i < dst + n then s[src + i - dst] else s[i]
  {
  }

  /** `memset(s + at, v, n)` on a cell buffer. */
  function Fill(s: seq<bv16>, at: nat, n: nat, v: bv16): (r: seq<bv16>)
    requires at + n <= |s|
    ensures |r| == |s|
  {
    s[..at] + seq(n, _ => v) + s[at + n..]
  }

  /** Cells in the window hold the value, all others are unchanged. */
  lemma FillAt(s: seq<bv16>, at: nat, n: nat, v: bv16)
    requires at + n <= |s|
    ensures forall i :: 0 <= i < |s| ==> Fill(s, at, n, v)[i] == if at <= i < at + n then v else s[i]
  {
  }

  /** A buffer and a cursor after the scroll check: from row 24 on, rows
      1-23 move up one row, the cells from the moved-back cursor to the end
      of row 23 become zero, and the cursor moves back one row. */
  function Scroll(s: seq<bv16>, pos: int): (r: (seq<bv16>, int))
    requires |s| == Cells && 0 <= pos <= Cells
    ensures |r.0| == Cells && 0 <= r.1 <= ScrollLimit
    ensures pos < ScrollLimit ==> r == (s, pos)
    ensures pos >= ScrollLimit ==> r.1 == pos - Cols
    ensures pos == ScrollLimit ==> r.0 == s[Cols..ScrollLimit] + seq(Cols, _ => 0) + s[ScrollLimit..]
  {
    if pos / Cols >= 24 then
      var moved := Move(s, 0, Cols, 23 * Cols);
      var back := pos - Cols;
      var r := (Fill(moved, back, ScrollLimit - back, 0), back);
      MoveAt(s, 0, Cols, 23 * Cols);
      FillAt(moved, back, ScrollLimit - back, 0);
      assert pos == ScrollLimit ==> r.0 == s[Cols..ScrollLimit] + seq(Cols, _ => 0) + s[ScrollLimit..];
      r
    else
      (s, pos)
  }

  /** The result of an SGR parameter on an attribute word, or None when
      the source would index the colour table out of its 20 entries. */
  function ApplySgr(a: bv16, t: nat): (r: Option<bv16>)
    ensures r.Some? <==> t == 0 || 30 <= t < 50
    ensures t == 0 ==> r == Some(DefaultAttr)
  {
    if t == 0 then Some(DefaultAttr)
    else if 30 <= t < 40 then Some((a & 0xf0ff) | Filter[t - 30])
    else if 40 <= t < 50 then Some((a & 0x0fff) | Filter[t - 30])
    else None
  }

  /** What a parameter does to the attribute word: 30-39 replace the
      foreground nibble with the table entry and keep the rest, 40-49 replace
      the background nibble and keep the character bits, and every
      background parameter but 47 keeps the foreground too. */
  lemma SgrMeaning(a: bv16, t: nat)
    requires 30 <= t < 50
    ensures 30 <= t < 40 ==> ApplySgr(a, t).value & 0xf0ff == a & 0xf0ff && ApplySgr(a, t).value & 0x0f00 == Filter[t - 30]
    ensures 40 <= t < 50 ==> ApplySgr(a, t).value & 0xf000 == Filter[t - 30] & 0xf000 && ApplySgr(a, t).value & 0x00ff == a & 0x00ff
    ensures 40 <= t < 50 && t != 47 ==> ApplySgr(a, t).value & 0x0fff == a & 0x0fff
  {
    FilterNibbles(t - 30);
  }

  /** Which nibble each colour-table entry occupies: the foreground entries
      only the foreground nibble, the background entries only the background
      nibble — except entry 17, which sits in the foreground nibble. */
  lemma FilterNibbles(i: nat)
    requires i < |Filter|
    ensures i < 10 ==> Filter[i] & 0xf0ff == 0
    ensures 10 <= i && i != 17 ==> Filter[i] & 0x0fff == 0
    ensures Filter[17] == 0x0f00
  {
    match i
    case 0 => case 1 => case 2 => case 3 => case 4 =>
    case 5 => case 6 => case 7 => case 8 => case 9 =>
    case 10 => case 11 => case 12 => case 13 => case 14 =>
    case 15 => case 16 => case 17 => case 18 => case _ =>
  }


  /** The display with the output target's terminal replaced. */
  function Retarget(d: Display, v: Vt): (e: Display)
    requires d.tminor < |d.vts|
  {
    d.(vts := d.vts[d.tminor := v])
  }

  /** A switch code for terminal `k`: unless `k` is already both visible and
      targeted, the screen up to the old cursor is blanked in the old
      terminal's colours, `k`'s cells up to its cursor are copied onto it,
      and `k` becomes visible and targeted with the hardware cursor at its
      position. */
  function Switch(d: Display, k: nat): (e: Display)
    requires Wf(d) && k < Terminals
    ensures Wf(e) && e.tidx == k && e.tminor == k && e.vts == d.vts
  {
    if d.tidx != k || d.tminor != k then
      var blanked := Fill(d.crt, 0, d.pos, Blank(d.vts[d.tidx].attr));
      var v := d.vts[k];
      d.(crt := v.cells[..v.pos] + blanked[v.pos..], pos := v.pos, tidx := k, tminor := k)
    else
      d
  }

  /** A byte that is neither a switch code nor ESC, up to the bounds check:
      newline, rubout, the start of `ESC [`, a byte inside the sequence, or
      a character to print. Every such byte forgets a pending ESC. */
  function Feed(d: Display, c: int): (r: Outcome)
    requires Wf(d)
    ensures !r.Panic?
    ensures r.Done? ==> Shaped(r.d) && r.d.tidx == d.tidx && r.d.tminor == d.tminor
    ensures r.Done? ==> 0 <= r.d.pos <= Cells && 0 <= r.d.vts[d.tminor].pos <= Cells
    ensures r.Done? ==> forall k :: 0 <= k < Terminals && k != d.tminor ==> r.d.vts[k] == d.vts[k]
  {
    var v := d.vts[d.tminor];
    var active := d.tminor == d.tidx;
    if c == Newline then
      var e := d.(pos := if active then NextRow(d.pos) else d.pos);
      Done(Retarget(e, v.(pos := NextRow(v.pos), esc := false)))
    else if c == Backspace then
      var e := d.(pos := if d.pos > 0 && active then d.pos - 1 else d.pos);
      Done(Retarget(e, v.(pos := if v.pos > 0 then v.pos - 1 else v.pos, esc := false)))
    else if v.esc && c == LeftBracket then
      Done(Retarget(d, v.(csi := true, esc := false)))
    else if v.csi then
      var t := if IsDigit(c) then v.param * 10 + (c - DigitZero) else v.param;
      if c == LetterM || c == Semicolon then
        match ApplySgr(v.attr, t)
        case None => Undefined(t)
        case Some(a) => Done(Retarget(d, v.(attr := a, param := 0, csi := c == Semicolon, esc := false)))
      else
        Done(Retarget(d, v.(param := t, esc := false)))
    else
      var e := if active then d.(crt := d.crt[d.pos := Glyph(c, d.vts[d.tidx].attr)], pos := d.pos + 1) else d;
      Done(Retarget(e, v.(cells := v.cells[v.pos := Glyph(c, v.attr)], pos := v.pos + 1, esc := false)))
  }

  /** Lines 238-259: the panic on a cursor off the screen, the scroll of the
      physical screen and of the target's buffer, and the blank drawn at both
      cursors. With `guarded` the physical screen is only painted when the
      target is the visible terminal. */
  function Finish(d: Display, guarded: bool): (r: Outcome)
    requires Shaped(d)
    ensures r.Panic? <==> !(0 <= d.pos <= Cells && 0 <= d.vts[d.tminor].pos <= Cells)
    ensures !r.Undefined?
    ensures r.Done? ==> Shaped(r.d) && r.d.tidx == d.tidx && r.d.tminor == d.tminor
    ensures r.Done? ==> 0 <= r.d.pos <= ScrollLimit && 0 <= r.d.vts[d.tminor].pos <= ScrollLimit
    ensures r.Done? ==> r.d.pos == if d.pos < ScrollLimit then d.pos else d.pos - Cols
    ensures r.Done? ==> r.d.vts[d.tminor].pos == var p := d.vts[d.tminor].pos; if p < ScrollLimit then p else p - Cols
    ensures r.Done? ==> forall k :: 0 <= k < Terminals && k != d.tminor ==> r.d.vts[k] == d.vts[k]
  {
    var v := d.vts[d.tminor];
    if d.pos < 0 || d.pos > Cells || v.pos < 0 || v.pos > Cells then
      Panic
    else
      var screen := Scroll(d.crt, d.pos);
      var own := Scroll(v.cells, v.pos);
      var blank := Blank(v.attr);
      var crt := if guarded && d.tminor != d.tidx then screen.0 else screen.0[screen.1 := blank];
      Done(Retarget(d.(crt := crt, pos := screen.1), v.(cells := own.0[own.1 := blank], pos := own.1)))
  }

  /** Lines 162-237: what a byte does before the bounds check — a switch
      code, an ESC, or a byte for the newline, rubout, sequence and print
      cases. */
  function Interpret(d: Display, c: int): (r: Outcome)
    requires Wf(d)
    ensures !r.Panic?
    ensures r.Undefined? <==> SgrEnd(d, c) && ApplySgr(d.vts[d.tminor].attr, d.vts[d.tminor].param).None?
    ensures r.Done? ==> Shaped(r.d) && 0 <= r.d.pos <= Cells && 0 <= r.d.vts[r.d.tminor].pos <= Cells
    ensures r.Done? && IsSwitch(c) ==> r.d.tidx == c - FirstSwitch && r.d.tminor == c - FirstSwitch
    ensures r.Done? && !IsSwitch(c) ==> r.d.tidx == d.tidx && r.d.tminor == d.tminor
    ensures r.Done? ==> forall k :: 0 <= k < Terminals && k != r.d.tminor ==> r.d.vts[k] == d.vts[k]
  {
    if IsSwitch(c) then
      Done(Switch(d, c - FirstSwitch))
    else if c == Esc then
      Done(Retarget(d, d.vts[d.tminor].(esc := true)))
    else
      Feed(d, c)
  }

  /** One byte through `cgaputc`; `guarded` selects the corrected drawing
      of the cursor cell. */
  function Step(d: Display, c: int, guarded: bool): (r: Outcome)
    requires Wf(d)
    ensures !r.Panic?
    ensures r.Undefined? <==> SgrEnd(d, c) && ApplySgr(d.vts[d.tminor].attr, d.vts[d.tminor].param).None?
    ensures r.Done? ==> Wf(r.d) && r.d.pos <= ScrollLimit && r.d.vts[r.d.tminor].pos <= ScrollLimit
    ensures r.Done? && IsSwitch(c) ==> r.d.tidx == c - FirstSwitch && r.d.tminor == c - FirstSwitch
    ensures r.Done? && !IsSwitch(c) ==> r.d.tidx == d.tidx && r.d.tminor == d.tminor
    ensures r.Done? ==> forall k :: 0 <= k < Terminals && k != r.d.tminor ==> r.d.vts[k] == d.vts[k]
  {
    var r := Interpret(d, c);
    if r.Done? then Finish(r.d, guarded) else r
  }

  /** `cgaputc` exactly as written: the blank at the hardware cursor is drawn
      in the target's colours even when the target is not visible. */
  function PutCAsWritten(d: Display, c: int): (r: Outcome)
    requires Wf(d)
    ensures !r.Panic?
  {
    Step(d, c, false)
  }

  /** A byte closes an SGR parameter: `;` or `m` inside `ESC [`. */
  predicate SgrEnd(d: Display, c: int)
    requires Shaped(d)
  {
    d.vts[d.tminor].csi && (c == LetterM || c == Semicolon)
  }

  /** `cgaputc` with the cursor cell of the physical screen painted only for
      the visible terminal, the model the console uses. */
  function PutC(d: Display, c: int): (r: Outcome)
    requires Wf(d)
    ensures r.Done? ==> Wf(r.d)
  {
    Step(d, c, true)
  }

  /** Bytes fed one after another, stopping at the first that does not
      complete. */
  function Run(d: Display, cs: seq<int>): (r: Outcome)
    requires Wf(d)
    ensures r.Done? ==> Wf(r.d)
    ensures !r.Panic?
    decreases |cs|
  {
    if cs == [] then Done(d)
    else
      var r := PutC(d, cs[0]);
      if r.Done? then Run(r.d, cs[1..]) else r
  }
}

=== FILE: cga_props.dfy ===
/** Properties of one byte through the display (`cgaputc`, kernel/console.c
    lines 141-260), stated over all displays with every cursor on screen. */
module CgaProps {
  import opened Base
  import opened Cga

  /** A byte the target terminal prints: not a control the display acts on
      and not swallowed by an escape sequence. */
  predicate Printable(d: Display, c: int)
    requires Shaped(d)
  {
    var v := d.vts[d.tminor];
    && !IsSwitch(c) && c != Esc && c != Newline && c != Backspace
    && !v.csi && !(v.esc && c == LeftBracket)
  }

  /** A byte an open `ESC [` sequence drops. */
  predicate Dropped(d: Display, c: int)
    requires Shaped(d)
  {
    var v := d.vts[d.tminor];
    && !IsSwitch(c) && c != Esc && c != Newline && c != Backspace
    && v.csi && !(v.esc && c == LeftBracket)
    && !IsDigit(c) && c != LetterM && c != Semicolon
  }

  /** No byte drives a cursor out of range: the panic at lines 238-239 is
      unreachable, and from row 23 or above every cursor stays above row 24. */
  lemma StaysSettled(d: Display, c: int)
    requires Settled(d)
    ensures PutC(d, c).Done? ==> Settled(PutC(d, c).d)
  {
    if PutC(d, c).Done? {
      if IsSwitch(c) {
        FinishSettles(Switch(d, c - FirstSwitch), true);
      } else if c == Esc {
        FinishSettles(Retarget(d, d.vts[d.tminor].(esc := true)), true);
      } else {
        FeedNear(d, c);
        FinishSettles(Feed(d, c).d, true);
      }
    }
  }

  /** A cursor above row 24 moves at most to the start of row 24 on a
      newline. */
  lemma NextRowBound(p: int)
    requires 0 <= p < ScrollLimit
    ensures p < NextRow(p) <= ScrollLimit && NextRow(p) % Cols == 0
  {
    assert NextRow(p) == (p / Cols + 1) * Cols;
  }

  /** From a settled display every byte leaves the cursors at most at the
      start of row 24, where the scroll check catches them. */
  lemma FeedNear(d: Display, c: int)
    requires Settled(d)
    ensures Feed(d, c).Done? ==> Feed(d, c).d.pos <= ScrollLimit && Feed(d, c).d.vts[d.tminor].pos <= ScrollLimit
  {
    NextRowBound(d.pos);
    NextRowBound(d.vts[d.tminor].pos);
  }

  /** The scroll check settles cursors that are at most at the start of
      row 24. */
  lemma FinishSettles(e: Display, guarded: bool)
    requires Shaped(e) && 0 <= e.pos <= ScrollLimit && 0 <= e.vts[e.tminor].pos <= ScrollLimit
    requires forall k :: 0 <= k < Terminals && k != e.tminor ==> 0 <= e.vts[k].pos < ScrollLimit
    ensures Finish(e, guarded).Done? && Settled(Finish(e, guarded).d)
  {
  }

  /** The hardware cursor and the target's cursor are above row 24, as a
      byte that moves neither keeps them. */
  predicate Calm(d: Display) {
    Wf(d) && d.pos < ScrollLimit && d.vts[d.tminor].pos < ScrollLimit
  }

  /** A printable byte is stored at the target's cursor in the target's
      colours and the cursor moves one cell on (back a row if that scrolls);
      on the visible terminal the physical screen gets the same glyph. */
  lemma PrintStores(d: Display, c: int)
    requires Settled(d) && Printable(d, c)
    ensures PutC(d, c).Done?
    ensures var v := d.vts[d.tminor]; var v' := PutC(d, c).d.vts[d.tminor];
      && v'.attr == v.attr && !v'.esc && !v'.csi && v'.param == v.param
      && (v.pos + 1 < ScrollLimit ==>
            v'.pos == v.pos + 1 && v'.cells == v.cells[v.pos := Glyph(c, v.attr)][v.pos + 1 := Blank(v.attr)])
      && (v.pos + 1 == ScrollLimit ==>
            v'.pos == v.pos + 1 - Cols && v'.cells[v'.pos - 1] == Glyph(c, v.attr) && v'.cells[v'.pos] == Blank(v.attr))
    ensures var r := PutC(d, c).d; var a := d.vts[d.tidx].attr;
      d.tminor == d.tidx && d.pos + 1 < ScrollLimit ==>
        r.pos == d.pos + 1 && r.crt == d.crt[d.pos := Glyph(c, a)][d.pos + 1 := Blank(a)]
  {
    var e := Feed(d, c);
    assert PutC(d, c) == Finish(e.d, true);
  }

  /** Output to a terminal that is not visible leaves the physical screen
      and the hardware cursor alone (the corrected drawing of line 258). */
  lemma BackgroundIsolated(d: Display, c: int)
    requires Settled(d) && d.tminor != d.tidx && !IsSwitch(c)
    ensures PutC(d, c).Done? ==> PutC(d, c).d.crt == d.crt && PutC(d, c).d.pos == d.pos
  {
    if PutC(d, c).Done? {
      var e := if c == Esc then Retarget(d, d.vts[d.tminor].(esc := true)) else Feed(d, c).d;
      assert PutC(d, c) == Finish(e, true);
      assert e.crt == d.crt && e.pos == d.pos;
    }
  }

  /** As written, output to a terminal that is not visible changes the
      physical screen only at the hardware cursor, where line 258 draws a
      blank in the target's colours, and never moves the hardware cursor. */
  lemma HiddenPaintsOnlyCursor(d: Display, c: int)
    requires Settled(d) && d.tminor != d.tidx && !IsSwitch(c)
    ensures var r := PutCAsWritten(d, c);
      r.Done? ==> r.d.crt == d.crt[d.pos := Blank(r.d.vts[d.tminor].attr)] && r.d.pos == d.pos
  {
    if PutCAsWritten(d, c).Done? {
      var e := if c == Esc then Retarget(d, d.vts[d.tminor].(esc := true)) else Feed(d, c).d;
      assert PutCAsWritten(d, c) == Finish(e, false);
      assert e.crt == d.crt && e.pos == d.pos;
    }
  }

  /** As written, line 258 repaints the cursor cell of the physical screen in
      the target's colours: a byte sent to a hidden terminal whose colours
      differ changes what the visible screen shows. */
  lemma CursorCellLeaks(d: Display, c: int)
    requires Settled(d) && CursorDrawn(d) && d.tminor != d.tidx
    requires Printable(d, c) || c == Newline || c == Backspace
    requires d.vts[d.tminor].attr & 0x00ff == 0 && d.vts[d.tidx].attr & 0x00ff == 0
    requires d.vts[d.tminor].attr != d.vts[d.tidx].attr
    ensures PutCAsWritten(d, c).Done? && PutCAsWritten(d, c).d.crt != d.crt
  {
    var a := d.vts[d.tminor].attr;
    var b := d.vts[d.tidx].attr;
    HiddenFeed(d, c);
    var e := Feed(d, c).d;
    assert PutCAsWritten(d, c) == Finish(e, false);
    UnguardedPaints(e);
    BlankDistinct(a, b);
  }

  /** Blanks in attributes with a clear low byte differ as the attributes
      do. */
  lemma BlankDistinct(a: bv16, b: bv16)
    requires a & 0x00ff == 0 && b & 0x00ff == 0 && a != b
    ensures Blank(a) != Blank(b)
  {
    assert Blank(a) & 0xff00 == a && Blank(b) & 0xff00 == b;
  }

  /** A newline, a rubout or a printed byte for a hidden terminal leaves
      the physical screen, the hardware cursor and the target's colours
      alone. */
  lemma HiddenFeed(d: Display, c: int)
    requires Settled(d) && d.tminor != d.tidx
    requires Printable(d, c) || c == Newline || c == Backspace
    ensures Feed(d, c).Done?
    ensures var e := Feed(d, c).d;
      e.crt == d.crt && e.pos == d.pos && e.vts[d.tminor].attr == d.vts[d.tminor].attr
      && 0 <= e.vts[d.tminor].pos <= ScrollLimit
  {
    FeedNear(d, c);
  }

  /** As written, the scroll check paints the hardware cursor's cell in the
      target's colours. */
  lemma UnguardedPaints(e: Display)
    requires Shaped(e) && 0 <= e.pos < ScrollLimit && 0 <= e.vts[e.tminor].pos <= ScrollLimit
    ensures Finish(e, false).Done?
    ensures Finish(e, false).d.crt[e.pos] == Blank(e.vts[e.tminor].attr)
  {
  }


  /** A newline moves the target's cursor to the start of the next row; a
      row 24 start scrolls back to row 23. The parser keeps its state. */
  lemma NewlineAdvances(d: Display)
    requires Settled(d)
    ensures PutC(d, Newline).Done?
    ensures var v := d.vts[d.tminor]; var v' := PutC(d, Newline).d.vts[d.tminor];
      && v'.pos % Cols == 0
      && v'.attr == v.attr && v'.csi == v.csi && v'.param == v.param && !v'.esc
      && (NextRow(v.pos) < ScrollLimit ==> v'.pos == NextRow(v.pos) && v'.cells == v.cells[v'.pos := Blank(v.attr)])
      && (NextRow(v.pos) == ScrollLimit ==> v'.pos == ScrollLimit - Cols)
  {
    var v := d.vts[d.tminor];
    NextRowBound(v.pos);
    NextRowBound(d.pos);
    NewlineStep(d);
    var e := NewlineFeed(d);
    FinishTarget(e);
  }

  /** A newline to the visible terminal moves the hardware cursor to the
      start of a row. */
  lemma NewlineCursor(d: Display)
    requires Settled(d)
    ensures PutC(d, Newline).Done?
    ensures d.tminor == d.tidx ==> PutC(d, Newline).d.pos % Cols == 0
  {
    NextRowBound(d.vts[d.tminor].pos);
    NextRowBound(d.pos);
    NewlineStep(d);
  }

  /** A newline is its feed followed by the scroll check. */
  lemma NewlineStep(d: Display)
    requires Settled(d)
    ensures PutC(d, Newline) == Finish(NewlineFeed(d), true)
  {
  }

  /** What a newline does before the scroll check. */
  function NewlineFeed(d: Display): (e: Display)
    requires Settled(d)
    ensures Feed(d, Newline) == Done(e)
    ensures Shaped(e) && e.tidx == d.tidx && e.tminor == d.tminor
    ensures e.vts[d.tminor] == d.vts[d.tminor].(pos := NextRow(d.vts[d.tminor].pos), esc := false)
    ensures e.pos == if d.tminor == d.tidx then NextRow(d.pos) else d.pos
  {
    var v := d.vts[d.tminor];
    Retarget(d.(pos := if d.tminor == d.tidx then NextRow(d.pos) else d.pos), v.(pos := NextRow(v.pos), esc := false))
  }

  /** The scroll check and cursor drawing, seen from the target terminal:
      its cursor cell gets a blank in its colours, after a scroll back one
      row when the cursor reached row 24; its parser is untouched. */
  lemma FinishTarget(e: Display)
    requires Shaped(e) && 0 <= e.pos <= ScrollLimit && 0 <= e.vts[e.tminor].pos <= ScrollLimit
    ensures Finish(e, true).Done?
    ensures var v := e.vts[e.tminor]; var v' := Finish(e, true).d.vts[e.tminor];
      && v'.attr == v.attr && v'.esc == v.esc && v'.csi == v.csi && v'.param == v.param
      && (v.pos < ScrollLimit ==> v'.pos == v.pos && v'.cells == v.cells[v.pos := Blank(v.attr)])
      && (v.pos == ScrollLimit ==> v'.pos == ScrollLimit - Cols)
  {
  }

  /** A rubout moves the target's cursor back one cell but never below 0,
      and the visible cursor likewise when the target is visible. */
  lemma BackspaceRetreats(d: Display)
    requires Settled(d)
    ensures PutC(d, Backspace).Done?
    ensures var v := d.vts[d.tminor]; var v' := PutC(d, Backspace).d.vts[d.tminor];
      && v'.pos == (if v.pos > 0 then v.pos - 1 else 0)
      && v'.cells == v.cells[v'.pos := Blank(v.attr)]
      && v'.attr == v.attr && v'.csi == v.csi && v'.param == v.param && !v'.esc
    ensures d.tminor == d.tidx ==> PutC(d, Backspace).d.pos == (if d.pos > 0 then d.pos - 1 else 0)
  {
    var e := Feed(d, Backspace);
    assert PutC(d, Backspace) == Finish(e.d, true);
  }

  /** Inside `ESC [`, a byte that is not a digit, `;`, `m` or a control the
      display acts on is dropped: nothing is stored, no cursor moves, and the
      sequence stays open with its parameter. */
  lemma DroppedByte(d: Display, c: int)
    requires Settled(d) && Dropped(d, c)
    ensures PutC(d, c).Done?
    ensures var v := d.vts[d.tminor]; var r := PutC(d, c).d;
      && r.vts[d.tminor] == v.(cells := v.cells[v.pos := Blank(v.attr)], esc := false)
      && r.pos == d.pos && r.tidx == d.tidx && r.tminor == d.tminor
      && r.crt == (if d.tminor == d.tidx then d.crt[d.pos := Blank(v.attr)] else d.crt)
  {
    var e := Feed(d, c);
    assert PutC(d, c) == Finish(e.d, true);
  }

  /** Inside `ESC [`, a digit extends the parameter in decimal. */
  lemma DigitAccumulates(d: Display, c: int)
    requires Calm(d) && d.vts[d.tminor].csi && IsDigit(c)
    ensures PutC(d, c).Done?
    ensures var v := d.vts[d.tminor]; var v' := PutC(d, c).d.vts[d.tminor];
      && v'.param == v.param * 10 + (c - DigitZero)
      && v'.csi && v'.attr == v.attr && v'.pos == v.pos && !v'.esc
      && PutC(d, c).d.pos == d.pos
  {
    var e := Feed(d, c);
    assert PutC(d, c) == Finish(e.d, true);
  }

  /** Inside `ESC [`, `;` or `m` applies the parameter to the attribute and
      clears it; `;` keeps the sequence open and `m` closes it. */
  lemma SgrApplied(d: Display, c: int)
    requires Calm(d) && SgrEnd(d, c)
    requires ApplySgr(d.vts[d.tminor].attr, d.vts[d.tminor].param).Some?
    ensures PutC(d, c).Done?
    ensures var v := d.vts[d.tminor]; var v' := PutC(d, c).d.vts[d.tminor];
      && v'.attr == ApplySgr(v.attr, v.param).value
      && v'.param == 0 && v'.csi == (c == Semicolon) && !v'.esc && v'.pos == v.pos
      && PutC(d, c).d.pos == d.pos
  {
    var e := Feed(d, c);
    assert PutC(d, c) == Finish(e.d, true);
  }

  /** A pending ESC only matters to a following `[`: for any other byte
      (switch codes aside, which leave it pending) it is forgotten. */
  lemma EscForgotten(d: Display, c: int)
    requires Wf(d) && c != LeftBracket && !IsSwitch(c)
    ensures var v := d.vts[d.tminor];
      PutC(Retarget(d, v.(esc := true)), c) == PutC(Retarget(d, v.(esc := false)), c)
  {
    var v := d.vts[d.tminor];
    var d1 := Retarget(d, v.(esc := true));
    var d0 := Retarget(d, v.(esc := false));
    if c != Esc {
      FeedIgnoresEsc(d, c);
    } else {
      assert Retarget(d1, d1.vts[d1.tminor].(esc := true)) == Retarget(d0, d0.vts[d0.tminor].(esc := true));
    }
  }

  /** Apart from `[`, no byte that reaches the sequence parser looks at the
      pending ESC. */
  lemma FeedIgnoresEsc(d: Display, c: int)
    requires Wf(d) && c != LeftBracket
    ensures var v := d.vts[d.tminor];
      Feed(Retarget(d, v.(esc := true)), c) == Feed(Retarget(d, v.(esc := false)), c)
  {
    if c == Newline || c == Backspace {
      MoveIgnoresEsc(d, c);
    } else if d.vts[d.tminor].csi {
      ParamIgnoresEsc(d, c);
    } else {
      PrintIgnoresEsc(d, c);
    }
  }

  /** A newline or rubout clears the pending ESC either way. */
  lemma MoveIgnoresEsc(d: Display, c: int)
    requires Wf(d) && (c == Newline || c == Backspace)
    ensures var v := d.vts[d.tminor];
      Feed(Retarget(d, v.(esc := true)), c) == Feed(Retarget(d, v.(esc := false)), c)
  {
    var v := d.vts[d.tminor];
    var w := Feed(Retarget(d, v.(esc := true)), c).d.vts[d.tminor];
    RetargetTwice(d, v.(esc := true), w);
    RetargetTwice(d, v.(esc := false), w);
  }

  /** A byte inside `ESC [` other than `[` never reads the pending ESC. */
  lemma ParamIgnoresEsc(d: Display, c: int)
    requires Wf(d) && c != Newline && c != Backspace && c != LeftBracket && d.vts[d.tminor].csi
    ensures var v := d.vts[d.tminor];
      Feed(Retarget(d, v.(esc := true)), c) == Feed(Retarget(d, v.(esc := false)), c)
  {
    var v := d.vts[d.tminor];
    var r := Feed(Retarget(d, v.(esc := true)), c);
    if r.Done? {
      RetargetTwice(d, v.(esc := true), r.d.vts[d.tminor]);
      RetargetTwice(d, v.(esc := false), r.d.vts[d.tminor]);
    }
  }

  /** A printed byte clears the pending ESC either way. */
  lemma PrintIgnoresEsc(d: Display, c: int)
    requires Wf(d) && c != Newline && c != Backspace && c != LeftBracket && !d.vts[d.tminor].csi
    ensures var v := d.vts[d.tminor];
      Feed(Retarget(d, v.(esc := true)), c) == Feed(Retarget(d, v.(esc := false)), c)
  {
    var v := d.vts[d.tminor];
    var w := Feed(Retarget(d, v.(esc := true)), c).d.vts[d.tminor];
    RetargetTwice(d, v.(esc := true), w);
    RetargetTwice(d, v.(esc := false), w);
  }

  /** Retargeting twice keeps only the second terminal. */
  lemma RetargetTwice(d: Display, a: Vt, b: Vt)
    requires d.tminor < |d.vts|
    ensures Retarget(Retarget(d, a), b) == Retarget(d, b)
  {
    assert d.vts[d.tminor := a][d.tminor := b] == d.vts[d.tminor := b];
  }

  /** An ESC only raises the target's pending flag; no cursor moves. */
  lemma EscPends(d: Display)
    requires Calm(d)
    ensures PutC(d, Esc).Done?
    ensures var v := d.vts[d.tminor]; var v' := PutC(d, Esc).d.vts[d.tminor];
      && v' == v.(cells := v.cells[v.pos := Blank(v.attr)], esc := true)
      && PutC(d, Esc).d.pos == d.pos
  {
    assert PutC(d, Esc) == Finish(Retarget(d, d.vts[d.tminor].(esc := true)), true);
  }

  /** `[` right after ESC opens a sequence, keeping the parameter. */
  lemma CsiOpens(d: Display)
    requires Calm(d) && d.vts[d.tminor].esc
    ensures PutC(d, LeftBracket).Done?
    ensures var v := d.vts[d.tminor]; var v' := PutC(d, LeftBracket).d.vts[d.tminor];
      && v' == v.(cells := v.cells[v.pos := Blank(v.attr)], esc := false, csi := true)
      && PutC(d, LeftBracket).d.pos == d.pos
  {
    var e := Feed(d, LeftBracket);
    assert PutC(d, LeftBracket) == Finish(e.d, true);
  }

  /** A switch to a terminal that is not both visible and targeted blanks
      the screen below the old cursor in the old colours, copies the new
      terminal's cells up to its cursor, and puts the hardware cursor there;
      the screen beyond both cursors is untouched. */
  lemma SwitchShows(d: Display, k: nat)
    requires Settled(d) && k < Terminals && (d.tidx != k || d.tminor != k)
    ensures PutC(d, FirstSwitch + k).Done?
    ensures var r := PutC(d, FirstSwitch + k).d; var v := d.vts[k];
      && r.tidx == k && r.tminor == k && r.pos == v.pos
      && (forall i :: 0 <= i < v.pos ==> r.crt[i] == v.cells[i])
      && r.crt[v.pos] == Blank(v.attr)
      && (forall i :: v.pos < i < d.pos ==> r.crt[i] == Blank(d.vts[d.tidx].attr))
      && (forall i :: d.pos <= i < Cells && v.pos < i ==> r.crt[i] == d.crt[i])
      && r.vts == d.vts[k := v.(cells := v.cells[v.pos := Blank(v.attr)])]
  {
    SwitchStep(d, k);
    FinishInPlace(Switch(d, k));
    SwitchScreen(d, k);
  }

  /** A switch code is the switch followed by the scroll check. */
  lemma SwitchStep(d: Display, k: nat)
    requires Wf(d) && k < Terminals
    ensures PutC(d, FirstSwitch + k) == Finish(Switch(d, k), true)
  {
  }

  /** The screen a switch leaves before the cursor is drawn: the new
      terminal's cells below its cursor, blanks in the old colours up to the
      old cursor, and the old screen beyond both. */
  lemma SwitchScreen(d: Display, k: nat)
    requires Wf(d) && k < Terminals && (d.tidx != k || d.tminor != k)
    ensures var e := Switch(d, k); var v := d.vts[k];
      && e.pos == v.pos
      && (forall i :: 0 <= i < v.pos ==> e.crt[i] == v.cells[i])
      && (forall i :: v.pos <= i < d.pos ==> e.crt[i] == Blank(d.vts[d.tidx].attr))
      && (forall i :: d.pos <= i < Cells && v.pos <= i ==> e.crt[i] == d.crt[i])
  {
    FillAt(d.crt, 0, d.pos, Blank(d.vts[d.tidx].attr));
  }

  /** The scroll check on cursors above row 24 moves nothing: it draws the
      blank at the target's cursor, and at the hardware cursor when the
      target is visible. */
  lemma FinishInPlace(e: Display)
    requires Shaped(e) && 0 <= e.pos < ScrollLimit && 0 <= e.vts[e.tminor].pos < ScrollLimit
    ensures Finish(e, true).Done?
    ensures var r := Finish(e, true).d; var v := e.vts[e.tminor];
      && r.pos == e.pos && r.tidx == e.tidx && r.tminor == e.tminor
      && r.crt == (if e.tminor == e.tidx then e.crt[e.pos := Blank(v.attr)] else e.crt)
      && r.vts == e.vts[e.tminor := v.(cells := v.cells[v.pos := Blank(v.attr)])]
  {
  }

  /** A switch to the terminal already visible and targeted changes nothing
      but the blank drawn at the two cursors. */
  lemma SwitchToSelf(d: Display, k: nat)
    requires Settled(d) && k < Terminals && d.tidx == k && d.tminor == k
    ensures PutC(d, FirstSwitch + k).Done?
    ensures var r := PutC(d, FirstSwitch + k).d; var v := d.vts[k];
      && r.pos == d.pos && r.tidx == k && r.tminor == k
      && r.crt == d.crt[d.pos := Blank(v.attr)]
      && r.vts == d.vts[k := v.(cells := v.cells[v.pos := Blank(v.attr)])]
  {
    assert PutC(d, FirstSwitch + k) == Finish(Switch(d, k), true);
  }

  /** If the visible terminal's cursor cell shows a blank in its colours,
      it still does after any byte. */
  lemma CursorStaysDrawn(d: Display, c: int)
    requires Settled(d) && CursorDrawn(d)
    ensures PutC(d, c).Done? ==> CursorDrawn(PutC(d, c).d)
  {
    var r := PutC(d, c);
    if r.Done? && r.d.tminor != r.d.tidx {
      BackgroundIsolated(d, c);
    }
  }

  /** SGR 47 ("white background") clears the background and forces the
      foreground to bright white, because its table entry lies in the
      foreground nibble. */
  lemma WhiteBackgroundQuirk(a: bv16)
    ensures ApplySgr(a, 47) == Some((a & 0x00ff) | 0x0f00)
  {
    FilterNibbles(17);
  }

  /** Feeding two byte strings in turn is feeding their concatenation. */
  lemma {:induction false} RunAppend(d: Display, a: seq<int>, b: seq<int>)
    requires Wf(d)
    ensures Run(d, a + b) == if Run(d, a).Done? then Run(Run(d, a).d, b) else Run(d, a)
    decreases |a|
  {
    if a == [] {
      assert a + b == b;
      assert Run(d, a) == Done(d);
    } else {
      assert (a + b)[0] == a[0];
      assert (a + b)[1..] == a[1..] + b;
      var r := PutC(d, a[0]);
      assert Run(d, a + b) == if r.Done? then Run(r.d, a[1..] + b) else r;
      assert Run(d, a) == if r.Done? then Run(r.d, a[1..]) else r;
      if r.Done? {
        RunAppend(r.d, a[1..], b);
      }
    }
  }

  /** Any byte string keeps every cursor above row 24. */
  lemma {:induction false} RunSettles(d: Display, cs: seq<int>)
    requires Settled(d)
    ensures Run(d, cs).Done? ==> Settled(Run(d, cs).d)
    decreases |cs|
  {
    if cs != [] {
      var r := PutC(d, cs[0]);
      StaysSettled(d, cs[0]);
      if r.Done? {
        RunSettles(r.d, cs[1..]);
      }
    }
  }
}

=== FILE: console.dfy ===
/** The console device (kernel/console.c): `consputc` sends a code to the
    serial line and the display, `consolewrite` prints a user buffer on the
    terminal of the device minor, `consoleintr` runs the line discipline over
    keyboard codes, `consoleread` copies committed input to a reader, and
    `cprintf` prints formatted text. Locks, sleeping and port I/O are not
    modelled: the serial line is a trace of the codes sent to it, and the
    keyboard is the sequence of codes its `getc` returns. */
module Console {
  import opened Base
  import Cga
  import CgaProps
  import LineDiscipline
  import Format

  /** Whether the machine still runs: `Halted` after a panic (`panicked`
      stops every CPU), `Undefined` after a step the source does not define. */
  datatype Mode = Live | Halted | Undefined

  /** The display, the six input rings, what the serial line was sent, and
      the mode. */
  datatype Console = Console(display: Cga.Display, input: seq<LineDiscipline.Ring>, uart: seq<int>, mode: Mode)

  predicate Wf(k: Console) {
    && Cga.Wf(k.display)
    && |k.input| == Cga.Terminals
    && forall t :: 0 <= t < Cga.Terminals ==> LineDiscipline.Wf(k.input[t])
  }

  /** The console after `consoleinit`: the display at boot, empty rings. */
  function Boot(screen: seq<bv16>, cursor: int): (k: Console)
    requires |screen| == Cga.Cells && 0 <= cursor < Cga.Cells
    ensures Wf(k) && k.mode == Live && k.uart == []
    ensures forall t :: 0 <= t < Cga.Terminals ==> LineDiscipline.Unread(k.input[t]) == []
  {
    Console(Cga.Boot(screen, cursor), seq(Cga.Terminals, _ => LineDiscipline.EmptyRing()), [], Live)
  }

  /** What the serial line is sent for one code (lines 270-273). */
  function UartCodes(c: int): seq<int> {
    if c == Cga.Backspace then [8, 32, 8] else [c]
  }

  /** `consputc` (lines 262-276): nothing happens once the machine halted;
      otherwise the code goes to the serial line and then to the display. */
  function PutCons(k: Console, c: int): (k': Console)
    requires Wf(k)
    ensures Wf(k') && k'.input == k.input
    ensures k.mode != Live ==> k' == k
    ensures k.mode == Live ==> k'.uart == k.uart + UartCodes(c)
    ensures k'.mode == Live <==> k.mode == Live && Cga.PutC(k.display, c).Done?
    ensures k'.mode == Live ==> k'.display == Cga.PutC(k.display, c).d
    ensures k'.mode != Live ==> k'.display == k.display
  {
    if k.mode != Live then k
    else
      var r := Cga.PutC(k.display, c);
      Console(if r.Done? then r.d else k.display, k.input, k.uart + UartCodes(c),
              if r.Done? then Live else Undefined)
  }

  /** Codes sent one after another. */
  function PutAll(k: Console, cs: seq<int>): (k': Console)
    requires Wf(k)
    ensures Wf(k') && k'.input == k.input
    ensures k.mode != Live ==> k' == k
    ensures k'.mode == Live ==> k.mode == Live
    decreases |cs|
  {
    if cs == [] then k else PutCons(PutAll(k, cs[..|cs| - 1]), cs[|cs| - 1])
  }

  lemma PutAllSnoc(k: Console, cs: seq<int>, c: int)
    requires Wf(k)
    ensures PutAll(k, cs + [c]) == PutCons(PutAll(k, cs), c)
  {
    assert (cs + [c])[..|cs|] == cs;
  }

  /** Everything the serial line is sent for `cs`. */
  function UartTrace(cs: seq<int>): seq<int>
    decreases |cs|
  {
    if cs == [] then [] else UartTrace(cs[..|cs| - 1]) + UartCodes(cs[|cs| - 1])
  }

  /** Codes sent in turn reach the display as `Cga.Run` feeds them: the
      console stays up exactly while the display completes every byte. */
  lemma {:induction false} PutAllRuns(k: Console, cs: seq<int>)
    requires Wf(k) && k.mode == Live
    ensures var k' := PutAll(k, cs);
      && (k'.mode == Live <==> Cga.Run(k.display, cs).Done?)
      && (k'.mode == Live ==> k'.display == Cga.Run(k.display, cs).d)
    decreases |cs|
  {
    if cs != [] {
      var init := cs[..|cs| - 1];
      var last := cs[|cs| - 1];
      PutAllRuns(k, init);
      CgaProps.RunAppend(k.display, init, [last]);
      assert init + [last] == cs;
      PutAllSnoc(k, init, last);
      var r := Cga.Run(k.display, init);
      if r.Done? {
        RunOne(r.d, last);
      }
    }
  }

  lemma RunOne(d: Cga.Display, c: int)
    requires Cga.Wf(d)
    ensures Cga.Run(d, [c]) == Cga.PutC(d, c)
  {
    assert [c][1..] == [];
  }

  /** While the console is up, the serial line is sent every code. */
  lemma {:induction false} PutAllTrace(k: Console, cs: seq<int>)
    requires Wf(k)
    ensures PutAll(k, cs).mode == Live ==> PutAll(k, cs).uart == k.uart + UartTrace(cs)
    decreases |cs|
  {
    if cs != [] {
      PutAllTrace(k, cs[..|cs| - 1]);
    }
  }

  /** Without BACKSPACE the serial line is sent the codes themselves. */
  lemma {:induction false} PlainTrace(cs: seq<int>)
    requires forall i :: 0 <= i < |cs| ==> cs[i] != Cga.Backspace
    ensures UartTrace(cs) == cs
    decreases |cs|
  {
    if cs != [] {
      PlainTrace(cs[..|cs| - 1]);
      assert cs[..|cs| - 1] + [cs[|cs| - 1]] == cs;
    }
  }

  /** The loop of `consolewrite` (lines 389-390): each byte, masked to
      8 bits, through `consputc`. */
  method PutBytes(k: Console, data: seq<Byte>) returns (k': Console)
    requires Wf(k)
    ensures k' == PutAll(k, data)
  {
    k' := k;
    var i := 0;
    while i < |data|
      invariant 0 <= i <= |data|
      invariant k' == PutAll(k, data[..i])
    {
      var c := data[i] as int % 256;
      assert c == data[i];
      PutAllSnoc(k, data[..i], c);
      assert data[..i] + [c] == data[..i + 1];
      k' := PutCons(k', c);
      i := i + 1;
    }
    assert data[..|data|] == data;
  }

  /** `consolewrite` (lines 380-401): the device minor names the target
      terminal, every byte goes through `consputc`, the target is reset to
      the visible terminal afterwards, and the count is returned. */
  method ConsoleWrite(k: Console, minor: int, data: seq<Byte>) returns (k': Console, n: int)
    requires Wf(k) && 1 <= minor <= Cga.Terminals
    ensures n == |data| && Wf(k') && k'.input == k.input
    ensures k.mode != Live ==> k' == k
    ensures k'.mode == Live ==> k.mode == Live && k'.uart == k.uart + data
    ensures k'.mode == Live ==> k'.display.tminor == k'.display.tidx
    ensures k.mode == Live ==>
      var r := Cga.Run(k.display.(tminor := minor - 1), data);
      && (k'.mode == Live <==> r.Done?)
      && (r.Done? ==> k'.display == r.d.(tminor := r.d.tidx))
  {
    n := |data|;
    if k.mode != Live {
      return k, n;
    }
    var t := k.(display := k.display.(tminor := minor - 1));
    k' := WriteBytes(t, data);
    if k'.mode == Live {
      k' := k'.(display := k'.display.(tminor := k'.display.tidx));
    }
  }

  /** Bytes sent in turn reach the display as `Cga.Run` feeds them and the
      serial line as they are. */
  lemma WriteRuns(k: Console, data: seq<Byte>)
    requires Wf(k) && k.mode == Live
    ensures var k' := PutAll(k, data); var r := Cga.Run(k.display, data);
      && (k'.mode == Live <==> r.Done?)
      && (r.Done? ==> k'.display == r.d && k'.uart == k.uart + data)
  {
    PutAllRuns(k, data);
    PutAllTrace(k, data);
    PlainTrace(data);
  }

  /** The loop of `consolewrite` on a running console, described by what
      reaches the display and the serial line. */
  method WriteBytes(k: Console, data: seq<Byte>) returns (k': Console)
    requires Wf(k) && k.mode == Live
    ensures Wf(k') && k'.input == k.input
    ensures var r := Cga.Run(k.display, data);
      && (k'.mode == Live <==> r.Done?)
      && (r.Done? ==> k'.display == r.d && k'.uart == k.uart + data)
  {
    k' := PutBytes(k, data);
    WriteRuns(k, data);
  }

  /** A write to a hidden terminal that switches no terminal leaves the
      physical screen and its cursor alone (the promise of the comment at
      console.c line 129, kept by the corrected cursor drawing). */
  lemma {:induction false} HiddenWriteInvisible(k: Console, minor: int, data: seq<Byte>)
    requires Wf(k) && k.mode == Live && Cga.Settled(k.display)
    requires 1 <= minor <= Cga.Terminals && minor - 1 != k.display.tidx
    requires forall i :: 0 <= i < |data| ==> !Cga.IsSwitch(data[i])
    ensures var r := Cga.Run(k.display.(tminor := minor - 1), data);
      r.Done? ==> r.d.crt == k.display.crt && r.d.pos == k.display.pos && r.d.tidx == k.display.tidx
  {
    HiddenRun(k.display.(tminor := minor - 1), data);
  }

  /** Bytes fed to a hidden target keep the screen, its cursor and the
      visible terminal. */
  lemma {:induction false} HiddenRun(d: Cga.Display, cs: seq<int>)
    requires Cga.Settled(d) && d.tminor != d.tidx
    requires forall i :: 0 <= i < |cs| ==> !Cga.IsSwitch(cs[i])
    ensures var r := Cga.Run(d, cs);
      r.Done? ==> (r.d.crt == d.crt && r.d.pos == d.pos && r.d.tidx == d.tidx && r.d.tminor == d.tminor
        && Cga.Settled(r.d))
    decreases |cs|
  {
    if cs != [] {
      var s := Cga.PutC(d, cs[0]);
      if s.Done? {
        CgaProps.BackgroundIsolated(d, cs[0]);
        CgaProps.StaysSettled(d, cs[0]);
        HiddenRun(s.d, cs[1..]);
      }
    }
  }

  /** One code from the keyboard in `consoleintr` (lines 296-333): a
      terminal switch goes straight to the display, ^P only asks for a
      process listing, and anything else edits the visible terminal's ring
      and is echoed. */
  function IntrStep(k: Console, c: Byte): (k': Console)
    requires Wf(k)
    ensures Wf(k')
    ensures forall t :: 0 <= t < Cga.Terminals ==> k'.input[t].r == k.input[t].r
    ensures k.mode != Live ==> k' == k
    ensures Cga.IsSwitch(c) && k.mode == Live ==> k'.display.tidx == c - Cga.FirstSwitch && k'.input == k.input
    ensures c == LineDiscipline.CtrlP ==> k' == k
  {
    if k.mode != Live || c == LineDiscipline.CtrlP then k
    else if Cga.IsSwitch(c) then
      var r := Cga.PutC(k.display, c);
      k.(display := if r.Done? then r.d else k.display)
    else
      var m := k.display.tidx;
      var x := LineDiscipline.Edit(k.input[m], c);
      PutAll(k.(input := k.input[m := x.ring]), x.echo)
  }

  /** An interrupt never changes what readers have yet to take. */
  lemma IntrKeepsUnread(k: Console, c: Byte)
    requires Wf(k)
    ensures forall t :: 0 <= t < Cga.Terminals ==>
      LineDiscipline.IsPrefix(LineDiscipline.Unread(k.input[t]), LineDiscipline.Unread(IntrStep(k, c).input[t]))
  {
    if k.mode == Live && c != LineDiscipline.CtrlP && !Cga.IsSwitch(c) {
      LineDiscipline.EditKeepsCommitted(k.input[k.display.tidx], c);
    }
    forall t | 0 <= t < Cga.Terminals
      ensures LineDiscipline.IsPrefix(LineDiscipline.Unread(k.input[t]), LineDiscipline.Unread(IntrStep(k, c).input[t]))
    {
      PrefixRefl(LineDiscipline.Unread(k.input[t]));
    }
  }

  lemma PrefixRefl(a: seq<Byte>)
    ensures LineDiscipline.IsPrefix(a, a)
  {
  }

  lemma PrefixTrans(a: seq<Byte>, b: seq<Byte>, c: seq<Byte>)
    requires LineDiscipline.IsPrefix(a, b) && LineDiscipline.IsPrefix(b, c)
    ensures LineDiscipline.IsPrefix(a, c)
  {
    assert c[..|a|] == c[..|b|][..|a|];
  }

  /** What readers have yet to take only grows from `k0` through `k` and one
      more interrupt, and no read index moves. */
  lemma IntrAdvances(k0: Console, k: Console, c: Byte)
    requires Wf(k0) && Wf(k)
    requires forall t :: 0 <= t < Cga.Terminals ==> k.input[t].r == k0.input[t].r
    requires forall t :: 0 <= t < Cga.Terminals ==>
      LineDiscipline.IsPrefix(LineDiscipline.Unread(k0.input[t]), LineDiscipline.Unread(k.input[t]))
    ensures forall t :: 0 <= t < Cga.Terminals ==> IntrStep(k, c).input[t].r == k0.input[t].r
    ensures forall t :: 0 <= t < Cga.Terminals ==>
      LineDiscipline.IsPrefix(LineDiscipline.Unread(k0.input[t]), LineDiscipline.Unread(IntrStep(k, c).input[t]))
  {
    IntrKeepsUnread(k, c);
    var next := IntrStep(k, c);
    forall t | 0 <= t < Cga.Terminals
      ensures LineDiscipline.IsPrefix(LineDiscipline.Unread(k0.input[t]), LineDiscipline.Unread(next.input[t]))
    {
      PrefixTrans(LineDiscipline.Unread(k0.input[t]), LineDiscipline.Unread(k.input[t]), LineDiscipline.Unread(next.input[t]));
    }
  }

  /** One pass of `consoleintr`'s loop (lines 296-331), seen from the console
      `k0` the call started with: no read index has moved and readers have
      only gained input. */
  method Interrupt(k0: Console, k: Console, c: Byte) returns (next: Console)
    requires Wf(k0) && Wf(k)
    requires forall t :: 0 <= t < Cga.Terminals ==> k.input[t].r == k0.input[t].r
    requires forall t :: 0 <= t < Cga.Terminals ==>
      LineDiscipline.IsPrefix(LineDiscipline.Unread(k0.input[t]), LineDiscipline.Unread(k.input[t]))
    ensures Wf(next)
    ensures forall t :: 0 <= t < Cga.Terminals ==> next.input[t].r == k0.input[t].r
    ensures forall t :: 0 <= t < Cga.Terminals ==>
      LineDiscipline.IsPrefix(LineDiscipline.Unread(k0.input[t]), LineDiscipline.Unread(next.input[t]))
    ensures next == IntrStep(k, c)
  {
    IntrAdvances(k0, k, c);
    next := IntrStep(k, c);
  }

  /** The codes of one interrupt handled in turn. */
  function IntrAll(k: Console, keys: seq<Byte>): (k': Console)
    requires Wf(k)
    ensures Wf(k')
    ensures k.mode != Live ==> k' == k
    decreases |keys|
  {
    if keys == [] then k else IntrStep(IntrAll(k, keys[..|keys| - 1]), keys[|keys| - 1])
  }

  /** One more code is one more step. */
  lemma IntrAllSnoc(k: Console, keys: seq<Byte>, c: Byte)
    requires Wf(k)
    ensures IntrAll(k, keys + [c]) == IntrStep(IntrAll(k, keys), c)
  {
    assert (keys + [c])[..|keys|] == keys;
  }

  /** `consoleintr` (lines 288-337): the codes `getc` returns before it
      reports no more input. Reports whether a process listing is due. */
  method ConsoleIntr(k: Console, keys: seq<Byte>) returns (k': Console, dump: bool)
    requires Wf(k)
    ensures Wf(k')
    ensures dump <==> LineDiscipline.CtrlP in keys
    ensures forall t :: 0 <= t < Cga.Terminals ==> k'.input[t].r == k.input[t].r
    ensures forall t :: 0 <= t < Cga.Terminals ==>
      LineDiscipline.IsPrefix(LineDiscipline.Unread(k.input[t]), LineDiscipline.Unread(k'.input[t]))
    ensures k' == IntrAll(k, keys)
  {
    k' := k;
    dump := false;
    var i := 0;
    while i < |keys|
      invariant 0 <= i <= |keys| && Wf(k')
      invariant dump <==> LineDiscipline.CtrlP in keys[..i]
      invariant forall t :: 0 <= t < Cga.Terminals ==> k'.input[t].r == k.input[t].r
      invariant forall t :: 0 <= t < Cga.Terminals ==>
        LineDiscipline.IsPrefix(LineDiscipline.Unread(k.input[t]), LineDiscipline.Unread(k'.input[t]))
      invariant k' == IntrAll(k, keys[..i])
    {
      var c := keys[i];
      if c == LineDiscipline.CtrlP {
        dump := true;
      }
      k' := Interrupt(k, k', c);
      IntrAllSnoc(k, keys[..i], c);
      TakeSnoc(keys, i);
      i := i + 1;
    }
    assert keys[..|keys|] == keys;
  }

  /** How a pass of `consoleread` ended: it returned a count, it found the
      process killed while waiting (-1), or it went to sleep for input. */
  datatype ReadEnd = Returned(count: int) | Killed | Asleep

  /** The loop of `consoleread` (lines 348-373) on one ring, up to the point
      where it returns or would sleep: `n` bytes are still wanted out of
      `target` (fewer after a sleep). */
  method ReadRing(q0: LineDiscipline.Ring, n: nat, target: nat)
    returns (q: LineDiscipline.Ring, got: seq<Byte>, stop: LineDiscipline.Stop)
    requires LineDiscipline.Wf(q0) && n <= target
    ensures LineDiscipline.Taken(q, got, stop) == LineDiscipline.Consume(q0, n, n < target)
  {
    var r;
    r, got, stop := CopyBytes(q0, n);
    var left := n - |got|;
    ReadExit(q0, n, n < target, r, got, stop);
    if stop == LineDiscipline.Eof {
      // The ^D is consumed, and put back when this read has taken bytes.
      r := r + 1;
      if left < target {
        r := r - 1;
      }
    }
    q := q0.(r := r);
  }

  /** The copying part of that loop: from the read index on, bytes are
      copied until `n` are taken, a newline has been copied, a ^D is next or
      nothing committed is left; `r` is where the read index stands. */
  method CopyBytes(q0: LineDiscipline.Ring, n: nat)
    returns (r: nat, got: seq<Byte>, stop: LineDiscipline.Stop)
    requires LineDiscipline.Wf(q0)
    ensures q0.r <= r <= q0.w && |got| == r - q0.r <= n
    ensures got == LineDiscipline.Slice(q0.buf, q0.r, r)
    ensures var last := if stop == LineDiscipline.Line then r - 1 else r;
      forall j :: q0.r <= j < last ==> PassesOver(LineDiscipline.At(q0.buf, j))
    ensures match stop
      case Filled => |got| == n
      case Line => 0 < |got| && LineDiscipline.At(q0.buf, r - 1) == Cga.Newline
      case Starved => |got| < n && r == q0.w
      case Eof => |got| < n && r < q0.w && LineDiscipline.At(q0.buf, r) == LineDiscipline.CtrlD
  {
    r := q0.r;
    got := [];
    stop := LineDiscipline.Filled;
    var left: nat := n;
    while left > 0
      invariant q0.r <= r <= q0.w && |got| == r - q0.r && left == n - |got|
      invariant got == LineDiscipline.Slice(q0.buf, q0.r, r)
      invariant forall j :: q0.r <= j < r ==> PassesOver(LineDiscipline.At(q0.buf, j))
      decreases left
    {
      if r == q0.w {
        stop := LineDiscipline.Starved;
        return;
      }
      var c := LineDiscipline.At(q0.buf, r);
      if c == LineDiscipline.CtrlD {
        stop := LineDiscipline.Eof;
        return;
      }
      LineDiscipline.SliceSnoc(q0.buf, q0.r, r);
      r := r + 1;
      got := got + [c];
      left := left - 1;
      if c == Cga.Newline {
        stop := LineDiscipline.Line;
        return;
      }
    }
  }

  /** A byte the reader copies and then goes on: neither end of file nor a
      newline. */
  predicate PassesOver(c: Byte)
  {
    c != LineDiscipline.CtrlD && c != Cga.Newline
  }

  /** Where the pass of `consoleread` stops, having copied `got` and seen
      `stop`, the ring and the bytes copied are what `Consume` describes. */
  lemma ReadExit(q0: LineDiscipline.Ring, n: nat, some: bool, r: nat, got: seq<Byte>, stop: LineDiscipline.Stop)
    requires LineDiscipline.Wf(q0) && q0.r <= r <= q0.w && |got| == r - q0.r <= n
    requires got == LineDiscipline.Slice(q0.buf, q0.r, r)
    requires var last := if stop == LineDiscipline.Line then r - 1 else r;
      forall j :: q0.r <= j < last ==> PassesOver(LineDiscipline.At(q0.buf, j))
    requires match stop
      case Filled => |got| == n
      case Line => 0 < |got| && LineDiscipline.At(q0.buf, r - 1) == Cga.Newline
      case Starved => |got| < n && r == q0.w
      case Eof => |got| < n && r < q0.w && LineDiscipline.At(q0.buf, r) == LineDiscipline.CtrlD
    ensures LineDiscipline.Consume(q0, n, some)
      == LineDiscipline.Taken(q0.(r := r + (if stop == LineDiscipline.Eof && !some && got == [] then 1 else 0)), got, stop)
  {
    ReadPasses(q0, n, r, got, stop);
    LineDiscipline.ScanUnique(q0.buf, q0.r, q0.w, n, |got|, stop);
    ConsumeAt(q0, n, some, r, got, stop);
  }

  /** `Consume` of a pass that `Scan` says copies `got` and stops at `stop`. */
  lemma ConsumeAt(q0: LineDiscipline.Ring, n: nat, some: bool, r: nat, got: seq<Byte>, stop: LineDiscipline.Stop)
    requires LineDiscipline.Wf(q0) && q0.r <= r <= q0.w && |got| == r - q0.r <= n
    requires got == LineDiscipline.Slice(q0.buf, q0.r, r)
    requires LineDiscipline.Scan(q0.buf, q0.r, q0.w, n) == (|got|, stop)
    ensures LineDiscipline.Consume(q0, n, some)
      == LineDiscipline.Taken(q0.(r := r + (if stop == LineDiscipline.Eof && !some && got == [] then 1 else 0)), got, stop)
  {
  }

  /** The conditions at an exit of the pass are those `Passes` names. */
  lemma ReadPasses(q0: LineDiscipline.Ring, n: nat, r: nat, got: seq<Byte>, stop: LineDiscipline.Stop)
    requires LineDiscipline.Wf(q0) && q0.r <= r <= q0.w && |got| == r - q0.r <= n
    requires var last := if stop == LineDiscipline.Line then r - 1 else r;
      forall j :: q0.r <= j < last ==> PassesOver(LineDiscipline.At(q0.buf, j))
    requires match stop
      case Filled => |got| == n
      case Line => 0 < |got| && LineDiscipline.At(q0.buf, r - 1) == Cga.Newline
      case Starved => |got| < n && r == q0.w
      case Eof => |got| < n && r < q0.w && LineDiscipline.At(q0.buf, r) == LineDiscipline.CtrlD
    ensures LineDiscipline.Passes(q0.buf, q0.r, q0.w, n, |got|, stop)
  {
  }

  /** `consoleread` (lines 340-378) on the ring of the device minor. */
  method ConsoleRead(k: Console, minor: int, n: nat, target: nat, killed: bool)
    returns (k': Console, got: seq<Byte>, left: nat, end: ReadEnd)
    requires Wf(k) && 1 <= minor <= Cga.Terminals && n <= target
    ensures Wf(k') && k'.display == k.display && k'.uart == k.uart && k'.mode == k.mode
    ensures var t := LineDiscipline.Consume(k.input[minor - 1], n, n < target);
      && k'.input == k.input[minor - 1 := t.ring]
      && got == t.got && left == n - |got|
      && (end == Asleep <==> t.stop == LineDiscipline.Starved && !killed)
      && (end == Killed <==> t.stop == LineDiscipline.Starved && killed)
      && (end.Returned? ==> end.count == target - left)
  {
    var q, stop;
    q, got, stop := ReadRing(k.input[minor - 1], n, target);
    k' := k.(input := k.input[minor - 1 := q]);
    left := n - |got|;
    end := if stop != LineDiscipline.Starved then Returned(target - left)
           else if killed then Killed else Asleep;
  }

  /** `cprintf` (lines 53-103): a null format panics; otherwise the
      formatted codes go through `consputc`. A conversion without a matching
      argument reads whatever the stack holds, which the model does not
      define. */
  function Cprintf(k: Console, fmt: Option<seq<Byte>>, args: seq<Format.Arg>): (k': Console)
    requires Wf(k)
    ensures Wf(k') && k'.input == k.input
    ensures k.mode != Live ==> k' == k
    ensures k.mode == Live && fmt.None? ==> k'.mode == Halted && k'.uart == k.uart
  {
    if k.mode != Live then k
    else if fmt.None? then k.(mode := Halted)
    else
      var p := Format.Interp(fmt.value, args);
      var k1 := PutAll(k, p.out);
      if p.complete || k1.mode != Live then k1 else k1.(mode := Undefined)
  }

  /** A complete `cprintf` sends the serial line exactly the formatted text,
      and the display receives the same codes. */
  lemma CprintfTrace(k: Console, fmt: seq<Byte>, args: seq<Format.Arg>)
    requires Wf(k) && k.mode == Live
    ensures var k' := Cprintf(k, Some(fmt), args); var p := Format.Interp(fmt, args);
      k'.mode == Live ==> (p.complete && k'.uart == k.uart + p.out
        && Cga.Run(k.display, p.out).Done? && k'.display == Cga.Run(k.display, p.out).d)
  {
    var p := Format.Interp(fmt, args);
    Format.InterpRange(fmt, args);
    PutAllRuns(k, p.out);
    PutAllTrace(k, p.out);
    PlainTrace(p.out);
  }
}

=== FILE: escape.dfy ===
/** The escape-sequence parser of `cgaputc` (kernel/console.c lines 162-236)
    on its own: the part of a terminal that ESC, `[`, digits, `;` and `m`
    act on, and the strings of such bytes, which change colours without
    moving a cursor. */
module Escape {
  import opened Base
  import opened Cga
  import opened CgaProps

  /** A terminal's attribute word and parser state. */
  datatype Parser = Parser(attr: bv16, esc: bool, csi: bool, param: nat)

  function ParserOf(v: Vt): Parser {
    Parser(v.attr, v.esc, v.csi, v.param)
  }

  /** A byte that only the parser sees: an ESC, the `[` after one, or any
      byte inside `ESC [` other than a newline, a rubout or a switch code. */
  predicate Quiet(p: Parser, c: int) {
    || c == Esc
    || (!IsSwitch(c) && c != Newline && c != Backspace && (p.csi || (p.esc && c == LeftBracket)))
  }

  /** One quiet byte through the parser, or None where the colour table
      would be read out of bounds. */
  function Parse(p: Parser, c: int): Option<Parser>
    requires Quiet(p, c)
  {
    if c == Esc then Some(p.(esc := true))
    else if p.esc && c == LeftBracket then Some(p.(csi := true, esc := false))
    else
      var t := if IsDigit(c) then p.param * 10 + (c - DigitZero) else p.param;
      if c == LetterM || c == Semicolon then
        match ApplySgr(p.attr, t)
        case None => None
        case Some(a) => Some(p.(attr := a, param := 0, csi := c == Semicolon, esc := false))
      else
        Some(p.(param := t, esc := false))
  }

  /** A string of quiet bytes through the parser; None if a byte is not
      quiet or reads the table out of bounds. */
  function ParseAll(p: Parser, cs: seq<int>): Option<Parser>
    decreases |cs|
  {
    if cs == [] then Some(p)
    else if !Quiet(p, cs[0]) then None
    else
      match Parse(p, cs[0])
      case None => None
      case Some(q) => ParseAll(q, cs[1..])
  }

  /** `r` is `d` with no cursor moved, the same terminal visible and
      targeted, and every other terminal untouched. */
  predicate Still(d: Display, r: Display) {
    && Calm(d) && Calm(r)
    && r.tidx == d.tidx && r.tminor == d.tminor
    && r.pos == d.pos && r.vts[d.tminor].pos == d.vts[d.tminor].pos
    && forall k :: 0 <= k < Terminals && k != d.tminor ==> r.vts[k] == d.vts[k]
  }

  /** A quiet byte does to the target terminal what the parser does, and
      nothing else but redraw the blank at the cursors; it fails exactly
      where the parser does. */
  lemma QuietStep(d: Display, c: int)
    requires Calm(d) && Quiet(ParserOf(d.vts[d.tminor]), c)
    ensures PutC(d, c).Done? <==> Parse(ParserOf(d.vts[d.tminor]), c).Some?
    ensures PutC(d, c).Done? ==>
      Still(d, PutC(d, c).d) && ParserOf(PutC(d, c).d.vts[d.tminor]) == Parse(ParserOf(d.vts[d.tminor]), c).value
  {
    var v := d.vts[d.tminor];
    if c == Esc {
      assert PutC(d, c) == Finish(Retarget(d, v.(esc := true)), true);
    } else {
      var e := Feed(d, c);
      assert PutC(d, c) == if e.Done? then Finish(e.d, true) else e;
    }
  }

  /** A string the parser accepts runs through the display without moving
      a cursor, and leaves the target's parser where the parser ends. */
  lemma {:induction false} QuietRun(d: Display, cs: seq<int>)
    requires Calm(d)
    ensures ParseAll(ParserOf(d.vts[d.tminor]), cs).Some? ==>
      && Run(d, cs).Done? && Still(d, Run(d, cs).d)
      && ParserOf(Run(d, cs).d.vts[d.tminor]) == ParseAll(ParserOf(d.vts[d.tminor]), cs).value
    decreases |cs|
  {
    var p := ParserOf(d.vts[d.tminor]);
    if cs != [] && Quiet(p, cs[0]) && Parse(p, cs[0]).Some? {
      QuietStep(d, cs[0]);
      var d1 := PutC(d, cs[0]).d;
      QuietRun(d1, cs[1..]);
    }
  }

  /** A string the parser takes to `p` runs through the display without
      moving a cursor and leaves the target's parser at `p`. */
  lemma ParsedRun(d: Display, cs: seq<int>, p: Parser)
    requires Calm(d) && ParseAll(ParserOf(d.vts[d.tminor]), cs) == Some(p)
    ensures Run(d, cs).Done? && Still(d, Run(d, cs).d) && ParserOf(Run(d, cs).d.vts[d.tminor]) == p
  {
    QuietRun(d, cs);
  }

  /** `ESC [` opens a sequence and keeps the attribute and parameter. */
  lemma SequenceOpens(d: Display)
    requires Calm(d)
    ensures var cs := [Esc, LeftBracket]; var v := d.vts[d.tminor];
      && Run(d, cs).Done? && Still(d, Run(d, cs).d)
      && ParserOf(Run(d, cs).d.vts[d.tminor]) == ParserOf(v).(csi := true, esc := false)
  {
    OpenParse(ParserOf(d.vts[d.tminor]));
    ParsedRun(d, [Esc, LeftBracket], ParserOf(d.vts[d.tminor]).(csi := true, esc := false));
  }

  /** The parser takes `ESC [` to an open sequence. */
  lemma OpenParse(p: Parser)
    ensures ParseAll(p, [Esc, LeftBracket]) == Some(p.(csi := true, esc := false))
  {
    var p1 := p.(esc := true);
    assert ParseAll(p1, [LeftBracket]) == ParseAll(p1.(csi := true, esc := false), []);
    assert ParseAll(p, [Esc, LeftBracket]) == ParseAll(p1, [LeftBracket]);
  }

  /** `ESC [ 0 m` restores the default colours from any attribute, without
      moving a cursor, when no parameter digits are pending. */
  lemma ResetSequence(d: Display)
    requires Calm(d) && d.vts[d.tminor].param == 0
    ensures var cs := [Esc, LeftBracket, DigitZero, LetterM];
      && Run(d, cs).Done? && Still(d, Run(d, cs).d)
      && ParserOf(Run(d, cs).d.vts[d.tminor]) == Parser(DefaultAttr, false, false, 0)
  {
    var cs := [Esc, LeftBracket, DigitZero, LetterM];
    var p := ParserOf(d.vts[d.tminor]);
    var p1 := p.(esc := true);
    var p2 := p1.(csi := true, esc := false);
    var p3 := p2.(param := 0, esc := false);
    assert ParseAll(p3, cs[3..]) == Some(Parser(DefaultAttr, false, false, 0));
    assert ParseAll(p2, cs[2..]) == ParseAll(p3, cs[3..]);
    assert ParseAll(p1, cs[1..]) == ParseAll(p2, cs[2..]);
    assert ParseAll(p, cs) == ParseAll(p1, cs[1..]);
    ParsedRun(d, cs, Parser(DefaultAttr, false, false, 0));
  }

  /** Inside a sequence with no digits yet, two digits and `m` apply the
      two-digit parameter and close the sequence. */
  lemma TwoDigitParam(d: Display, hi: int, lo: int)
    requires Calm(d) && d.vts[d.tminor].csi && d.vts[d.tminor].param == 0
    requires IsDigit(hi) && IsDigit(lo)
    requires ApplySgr(d.vts[d.tminor].attr, (hi - DigitZero) * 10 + (lo - DigitZero)).Some?
    ensures var cs := [hi, lo, LetterM]; var v := d.vts[d.tminor];
      && Run(d, cs).Done? && Still(d, Run(d, cs).d)
      && ParserOf(Run(d, cs).d.vts[d.tminor])
         == Parser(ApplySgr(v.attr, (hi - DigitZero) * 10 + (lo - DigitZero)).value, false, false, 0)
  {
    TwoDigitParse(ParserOf(d.vts[d.tminor]), hi, lo);
    var t := (hi - DigitZero) * 10 + (lo - DigitZero);
    ParsedRun(d, [hi, lo, LetterM], Parser(ApplySgr(d.vts[d.tminor].attr, t).value, false, false, 0));
  }

  /** The parser takes two digits and `m` to the two-digit parameter
      applied. */
  lemma TwoDigitParse(p: Parser, hi: int, lo: int)
    requires p.csi && p.param == 0 && IsDigit(hi) && IsDigit(lo)
    requires ApplySgr(p.attr, (hi - DigitZero) * 10 + (lo - DigitZero)).Some?
    ensures ParseAll(p, [hi, lo, LetterM])
      == Some(Parser(ApplySgr(p.attr, (hi - DigitZero) * 10 + (lo - DigitZero)).value, false, false, 0))
  {
    var cs := [hi, lo, LetterM];
    var t := (hi - DigitZero) * 10 + (lo - DigitZero);
    var p1 := p.(param := hi - DigitZero, esc := false);
    var p2 := p1.(param := t, esc := false);
    var p3 := Parser(ApplySgr(p.attr, t).value, false, false, 0);
    assert Parse(p, hi) == Some(p1);
    assert Parse(p1, lo) == Some(p2);
    assert Parse(p2, LetterM) == Some(p3);
    assert ParseAll(p2, cs[2..]) == Some(p3);
    assert ParseAll(p1, cs[1..]) == ParseAll(p2, cs[2..]);
    assert ParseAll(p, cs) == ParseAll(p1, cs[1..]);
  }

  /** `ESC [ 3 1 m` selects the red foreground (table entry 1) and keeps the
      background, without moving a cursor. */
  lemma RedSequence(d: Display)
    requires Calm(d) && d.vts[d.tminor].param == 0
    ensures var cs := [Esc, LeftBracket, DigitZero + 3, DigitZero + 1, LetterM]; var v := d.vts[d.tminor];
      && Run(d, cs).Done? && Still(d, Run(d, cs).d)
      && ParserOf(Run(d, cs).d.vts[d.tminor]) == Parser((v.attr & 0xf0ff) | 0x0400, false, false, 0)
  {
    var cs := [Esc, LeftBracket, DigitZero + 3, DigitZero + 1, LetterM];
    RedParse(ParserOf(d.vts[d.tminor]));
    ParsedRun(d, cs, Parser((d.vts[d.tminor].attr & 0xf0ff) | 0x0400, false, false, 0));
  }

  /** The parser takes `ESC [ 3 1 m` to the red foreground. */
  lemma RedParse(p: Parser)
    requires p.param == 0
    ensures ParseAll(p, [Esc, LeftBracket, DigitZero + 3, DigitZero + 1, LetterM])
      == Some(Parser((p.attr & 0xf0ff) | 0x0400, false, false, 0))
  {
    var cs := [Esc, LeftBracket, DigitZero + 3, DigitZero + 1, LetterM];
    RedAttr(p.attr);
    var p1 := p.(esc := true);
    var p2 := p1.(csi := true, esc := false);
    var p3 := p2.(param := 3, esc := false);
    var p4 := p3.(param := 31, esc := false);
    assert ParseAll(p4, cs[4..]) == Some(Parser((p.attr & 0xf0ff) | 0x0400, false, false, 0));
    assert ParseAll(p3, cs[3..]) == ParseAll(p4, cs[4..]);
    assert ParseAll(p2, cs[2..]) == ParseAll(p3, cs[3..]);
    assert ParseAll(p1, cs[1..]) == ParseAll(p2, cs[2..]);
  }

  /** Parameter 31 sets foreground entry 1, red. */
  lemma RedAttr(a: bv16)
    ensures ApplySgr(a, 31) == Some((a & 0xf0ff) | 0x0400)
  {
    assert Filter[1] == 0x0400;
  }

  /** After `ESC [ 3 1 m`, a printed character carries the red foreground
      and the background it had before. */
  lemma RedForeground(d: Display, ch: int)
    requires Settled(d) && d.vts[d.tminor].param == 0 && d.vts[d.tminor].pos + 1 < ScrollLimit
    requires !IsSwitch(ch) && ch != Esc && ch != Newline && ch != Backspace
    ensures var cs := [Esc, LeftBracket, DigitZero + 3, DigitZero + 1, LetterM, ch];
      Run(d, cs).Done? &&
      var v := d.vts[d.tminor]; var v' := Run(d, cs).d.vts[d.tminor];
      && v'.cells[v.pos] == Glyph(ch, (v.attr & 0xf0ff) | 0x0400)
      && v'.pos == v.pos + 1
  {
    var sgr := [Esc, LeftBracket, DigitZero + 3, DigitZero + 1, LetterM];
    RedSequence(d);
    RunSettles(d, sgr);
    var d5 := Run(d, sgr).d;
    PrintStores(d5, ch);
    var d6 := PutC(d5, ch).d;
    assert Run(d5, [ch]) == Run(d6, []);
    RunAppend(d, sgr, [ch]);
    assert sgr + [ch] == [Esc, LeftBracket, DigitZero + 3, DigitZero + 1, LetterM, ch];
  }
}

=== FILE: format.dfy ===
/** Formatted console output (kernel/console.c lines 27-103): `printint`
    renders a 32-bit argument in base 10 or 16, and `cprintf` walks a
    NUL-terminated format, passing ordinary bytes through and expanding
    `%d`, `%x`, `%p`, `%s` and `%%`. Output is the sequence of codes handed
    to `consputc`. */
module Format {
  import opened Base

  const Modulus := 0x1_0000_0000
  const HalfModulus := 0x8000_0000

  /** A 32-bit argument word, as `cprintf` fetches it from the stack. */
  type Word = x: int | 0 <= x < 0x1_0000_0000

  const Percent := 37
  const Minus := 45
  const LetterD := 100
  const LetterP := 112
  const LetterS := 115
  const LetterX := 120

  /** The text printed for a null `%s` argument. */
  const NullText: seq<int> := [40, 110, 117, 108, 108, 41]

  /** A variadic argument: a number, or a string pointer (None when null). */
  datatype Arg = Num(w: Word) | Str(s: Option<seq<Byte>>)

  /** The codes handed to `consputc`, and whether the format was finished
      (false when a conversion found no argument of its kind). */
  datatype Printed = Printed(out: seq<int>, complete: bool)

  /** The word read as the `int` that `printint` receives. */
  function Signed(w: Word): (v: int)
    ensures -HalfModulus <= v < HalfModulus
    ensures (v - w) % Modulus == 0
  {
    if w >= HalfModulus then w - Modulus else w
  }

  /** The character `digits[d]`. */
  function DigitChar(d: nat): (c: int)
    requires d < 16
    ensures 48 <= c <= 57 || 97 <= c <= 102
  {
    if d < 10 then 48 + d else 87 + d
  }

  /** The two bases `printint` is called with: 10 for `%d`, 16 for `%x`
      and `%p`. */
  datatype Radix = Dec | Hex

  function Size(r: Radix): nat {
    match r
    case Dec => 10
    case Hex => 16
  }

  /** `x / base` and `x % base`, and `v * base`, for each base. */
  function Quot(x: nat, r: Radix): nat {
    match r
    case Dec => x / 10
    case Hex => x / 16
  }

  function Rem(x: nat, r: Radix): nat {
    match r
    case Dec => x % 10
    case Hex => x % 16
  }

  function Shift(v: nat, r: Radix): nat {
    match r
    case Dec => v * 10
    case Hex => v * 16
  }

  lemma DivMod(x: nat, r: Radix)
    ensures x == Shift(Quot(x, r), r) + Rem(x, r) && Rem(x, r) < Size(r)
    ensures x < Size(r) <==> Quot(x, r) == 0
  {
  }

  lemma DivBound(x: nat, r: Radix, p: nat)
    requires x < Shift(p, r)
    ensures Quot(x, r) < p
  {
  }

  /** The digit value of a character from `digits`, if it is one. */
  function DigitValue(c: int, r: Radix): (d: Option<nat>)
    ensures d.Some? ==> d.value < Size(r) && DigitChar(d.value) == c
  {
    if 48 <= c <= 57 then Some(c - 48)
    else if r == Hex && 97 <= c <= 102 then Some(c - 87)
    else None
  }

  /** `x` written in base `r`, most significant digit first. */
  function Numeral(x: nat, r: Radix): (s: seq<int>)
    ensures 0 < |s|
    decreases x
  {
    DivMod(x, r);
    if x < Size(r) then [DigitChar(x)] else Numeral(Quot(x, r), r) + [DigitChar(Rem(x, r))]
  }

  /** Reads back a string of digits in base `r`. */
  function Value(s: seq<int>, r: Radix): Option<nat> {
    if s == [] then Some(0)
    else
      var d := DigitValue(s[|s| - 1], r);
      var v := Value(s[..|s| - 1], r);
      if d.None? || v.None? then None
      else Some(Shift(v.value, r) + d.value)
  }

  /** Reading a numeral gives back the number. */
  lemma {:induction false} NumeralValue(x: nat, r: Radix)
    ensures Value(Numeral(x, r), r) == Some(x)
    decreases x
  {
    var s := Numeral(x, r);
    DivMod(x, r);
    if x < Size(r) {
      assert s[..0] == [];
    } else {
      NumeralValue(Quot(x, r), r);
      assert s[..|s| - 1] == Numeral(Quot(x, r), r);
      assert DigitValue(s[|s| - 1], r) == Some(Rem(x, r));
    }
  }

  /** `base` to the power `n`. */
  function Power(r: Radix, n: nat): nat {
    if n == 0 then 1 else Shift(Power(r, n - 1), r)
  }

  /** A numeral has at most `width` digits when the number is below
      `base` to the power `width`. */
  lemma {:induction false} NumeralLength(x: nat, r: Radix, width: nat)
    requires 1 <= width && x < Power(r, width)
    ensures |Numeral(x, r)| <= width
  {
    DivMod(x, r);
    if x >= Size(r) {
      DivBound(x, r, Power(r, width - 1));
      NumeralLength(Quot(x, r), r, width - 1);
    }
  }

  /** Whether `printint` prints a minus sign. */
  predicate Negative(w: Word, sign: bool) {
    sign && Signed(w) < 0
  }

  /** The unsigned value whose digits `printint` prints. */
  function Magnitude(w: Word, sign: bool): (x: nat)
    ensures x < Modulus
    ensures Negative(w, sign) ==> x == -Signed(w) && 0 < x <= HalfModulus
    ensures !Negative(w, sign) ==> x == w
  {
    if Negative(w, sign) then -Signed(w) else w
  }

  /** What `printint(w, base, sign)` prints. */
  function IntText(w: Word, r: Radix, sign: bool): (s: seq<int>)
    ensures 0 < |s|
  {
    (if Negative(w, sign) then [Minus] else []) + Numeral(Magnitude(w, sign), r)
  }

  /** Reads back a signed decimal as `%d` prints it. */
  function ReadSigned(s: seq<int>): (v: Option<int>) {
    if |s| > 0 && s[0] == Minus then
      var m := Value(s[1..], Dec);
      if m.Some? then Some(0 - m.value as int) else None
    else
      var m := Value(s, Dec);
      if m.Some? then Some(m.value as int) else None
  }

  /** `%d` prints the word's signed value, and `%x` its unsigned value. */
  lemma IntTextRoundTrip(w: Word)
    ensures ReadSigned(IntText(w, Dec, true)) == Some(Signed(w))
    ensures Value(IntText(w, Hex, false), Hex) == Some(w)
  {
    var s := IntText(w, Dec, true);
    var m := Numeral(Magnitude(w, true), Dec);
    NumeralValue(Magnitude(w, true), Dec);
    NumeralValue(w, Hex);
    assert IntText(w, Hex, false) == Numeral(w, Hex);
    if Negative(w, true) {
      assert s == [Minus] + m && s[1..] == m;
    } else {
      assert s == m;
      assert m[0] != Minus by { NumeralDigits(Magnitude(w, true), Dec); }
    }
  }

  /** Every character of a numeral is a digit: `0`-`9` or `a`-`f`. */
  lemma {:induction false} NumeralDigits(x: nat, r: Radix)
    ensures forall i :: 0 <= i < |Numeral(x, r)| ==>
      48 <= Numeral(x, r)[i] <= 57 || 97 <= Numeral(x, r)[i] <= 102
    decreases x
  {
    DivMod(x, r);
    if x >= Size(r) {
      NumeralDigits(Quot(x, r), r);
    }
  }

  /** The digits and sign always fit `printint`'s 16-byte buffer. */
  lemma IntTextFits(w: Word, sign: bool)
    ensures |IntText(w, Dec, sign)| <= 11
    ensures |IntText(w, Hex, sign)| <= 9
  {
    assert Power(Dec, 10) == 10_000_000_000;
    assert Power(Hex, 8) == 0x1_0000_0000;
    NumeralLength(Magnitude(w, sign), Dec, 10);
    NumeralLength(Magnitude(w, sign), Hex, 8);
  }

  /** Peeling the last digit off a nonzero number. */
  lemma NumeralPeel(x: nat, r: Radix)
    requires x != 0
    ensures Numeral(x, r) == (if Quot(x, r) == 0 then [] else Numeral(Quot(x, r), r)) + [DigitChar(Rem(x, r))]
  {
    DivMod(x, r);
  }

  /** One pass of the digit loop: the last digit of `x` moves from the
      numeral onto the reversed buffer. */
  lemma PeelStep(x: nat, r: Radix, buf: seq<int>)
    requires x != 0
    ensures Numeral(x, r) + Reverse(buf)
      == (if Quot(x, r) == 0 then [] else Numeral(Quot(x, r), r)) + Reverse(buf + [DigitChar(Rem(x, r))])
  {
    var d := DigitChar(Rem(x, r));
    NumeralPeel(x, r);
    ReverseSnoc(buf, d);
    AppendAssoc(if Quot(x, r) == 0 then [] else Numeral(Quot(x, r), r), [d], Reverse(buf));
  }

  /** `printint` (lines 27-50): digits are produced least significant first
      into `buf` by a do-while loop, a minus sign appended, and the buffer
      emitted backwards. */
  method PrintInt(xx: Word, r: Radix, sign: bool) returns (out: seq<int>)
    ensures out == IntText(xx, r, sign)
  {
    var buf := FillDigits(xx, r, sign);
    out := EmitBackwards(buf);
  }

  /** The filling half of `printint` (lines 35-46): `buf` holds the text
      backwards. */
  method FillDigits(xx: Word, r: Radix, sign: bool) returns (buf: seq<int>)
    ensures Reverse(buf) == IntText(xx, r, sign)
  {
    var neg := Negative(xx, sign);
    var x: nat := Magnitude(xx, sign);
    buf := [];
    // The first pass of the do-while loop.
    DivMod(x, r);
    if x == 0 {
      assert Numeral(0, r) == [DigitChar(0)];
    } else {
      NumeralPeel(x, r);
    }
    buf := buf + [DigitChar(Rem(x, r))];
    x := Quot(x, r);
    while x != 0
      invariant Numeral(Magnitude(xx, sign), r) == (if x == 0 then [] else Numeral(x, r)) + Reverse(buf)
      decreases x
    {
      PeelStep(x, r, buf);
      buf := buf + [DigitChar(Rem(x, r))];
      x := Quot(x, r);
    }
    if neg {
      ReverseSnoc(buf, Minus);
      buf := buf + [Minus];
    }
  }

  /** The emitting half of `printint` (lines 48-49): the buffer is sent from
      its last byte down to its first. */
  method EmitBackwards(buf: seq<int>) returns (out: seq<int>)
    ensures out == Reverse(buf)
    ensures |out| == |buf| && forall j :: 0 <= j < |buf| ==> out[j] == buf[|buf| - 1 - j]
  {
    out := [];
    var i := |buf|;
    while i > 0
      invariant 0 <= i <= |buf|
      invariant out == Reverse(buf[i..])
    {
      assert buf[i - 1..] == [buf[i - 1]] + buf[i..];
      i := i - 1;
      out := out + [buf[i]];
    }
    assert buf[0..] == buf;
    forall j | 0 <= j < |buf|
      ensures out[j] == buf[|buf| - 1 - j]
    {
      ReverseIndex(buf, j);
    }
  }

  /** Reversing puts a last element first. */
  lemma {:induction false} ReverseSnoc(s: seq<int>, a: int)
    ensures Reverse(s + [a]) == [a] + Reverse(s)
    decreases |s|
  {
    if s != [] {
      assert (s + [a])[1..] == s[1..] + [a];
      ReverseSnoc(s[1..], a);
      AppendAssoc([a], Reverse(s[1..]), [s[0]]);
    }
  }

  /** The elements of `s` in the opposite order. */
  function Reverse(s: seq<int>): (r: seq<int>)
    ensures |r| == |s|
  {
    if s == [] then [] else Reverse(s[1..]) + [s[0]]
  }

  /** Element `i` of a reversal is element `|s| - 1 - i` of the original. */
  lemma {:induction false} ReverseIndex(s: seq<int>, i: int)
    requires 0 <= i < |s|
    ensures Reverse(s)[i] == s[|s| - 1 - i]
    decreases |s|
  {
    if i < |s| - 1 {
      ReverseIndex(s[1..], i);
    }
  }

  /** A `char` as the compiler sign-extends it when it is passed to
      `consputc`. */
  function SignExtend(b: Byte): (c: int)
    ensures -128 <= c < 128 && c % 256 == b
  {
    if b < 128 then b else b - 256
  }

  /** The characters `%s` prints from a string: everything before the
      first NUL, sign-extended (lines 86-88). */
  function CString(s: seq<Byte>): (t: seq<int>)
    ensures |t| <= |s|
    ensures |t| == |s| || s[|t|] == 0
    ensures forall i :: 0 <= i < |t| ==> s[i] != 0 && t[i] == SignExtend(s[i])
  {
    if s == [] || s[0] == 0 then [] else [SignExtend(s[0])] + CString(s[1..])
  }

  /** A conversion character that takes an argument. */
  predicate TakesArg(c: Byte) {
    c == LetterD || c == LetterX || c == LetterP || c == LetterS
  }

  /** What one argument-taking conversion prints, or None when the argument
      is not of the kind the conversion reads. */
  function Expand(c: Byte, a: Arg): (e: Option<seq<int>>)
    requires TakesArg(c)
    ensures e.Some? <==> (c == LetterS <==> a.Str?)
  {
    if c == LetterS then
      if a.Num? then None
      else if a.s.None? then Some(NullText)
      else Some(CString(a.s.value))
    else if a.Str? then None
    else if c == LetterD then Some(IntText(a.w, Dec, true))
    else Some(IntText(a.w, Hex, false))
  }

  function Prepend(s: seq<int>, p: Printed): Printed {
    Printed(s + p.out, p.complete)
  }

  /** `cprintf` (lines 53-103) on a format (ended by NUL or by its end) and
      its arguments. */
  function Interp(fmt: seq<Byte>, args: seq<Arg>): Printed
    decreases |fmt|
  {
    if fmt == [] || fmt[0] == 0 then Printed([], true)
    else if fmt[0] != Percent then Prepend([fmt[0]], Interp(fmt[1..], args))
    else if |fmt| == 1 || fmt[1] == 0 then Printed([], true)
    else
      var c := fmt[1];
      if TakesArg(c) then
        if args == [] then Printed([], false)
        else
          var e := Expand(c, args[0]);
          if e.None? then Printed([], false) else Prepend(e.value, Interp(fmt[2..], args[1..]))
      else if c == Percent then Prepend([Percent], Interp(fmt[2..], args))
      else Prepend([Percent, c], Interp(fmt[2..], args))
  }

  /** A format with no `%` and no NUL is printed as it stands. */
  lemma {:induction false} Verbatim(fmt: seq<Byte>, args: seq<Arg>)
    requires forall i :: 0 <= i < |fmt| ==> fmt[i] != Percent && fmt[i] != 0
    ensures Interp(fmt, args) == Printed(fmt, true)
    decreases |fmt|
  {
    if fmt != [] {
      Verbatim(fmt[1..], args);
      assert [fmt[0] as int] + fmt[1..] == fmt;
    }
  }

  /** Arguments beyond those the format converts are never read. */
  lemma {:induction false} ExtraArgsIgnored(fmt: seq<Byte>, args: seq<Arg>, more: seq<Arg>)
    requires Interp(fmt, args).complete
    ensures Interp(fmt, args + more) == Interp(fmt, args)
    decreases |fmt|
  {
    if fmt == [] || fmt[0] == 0 {
    } else if fmt[0] != Percent {
      ExtraArgsIgnored(fmt[1..], args, more);
    } else if |fmt| == 1 || fmt[1] == 0 {
    } else if TakesArg(fmt[1]) {
      assert args != [];
      assert (args + more)[1..] == args[1..] + more;
      ExtraArgsIgnored(fmt[2..], args[1..], more);
    } else {
      ExtraArgsIgnored(fmt[2..], args, more);
    }
  }

  /** Prepending twice is prepending the concatenation. */
  lemma PrependTwice(s: seq<int>, t: seq<int>, p: Printed)
    ensures Prepend(s, Prepend(t, p)) == Prepend(s + t, p)
  {
    assert s + (t + p.out) == (s + t) + p.out;
  }

  /** One directive of the format at `i`: `%` followed by `c`. */
  lemma UnfoldDirective(fmt: seq<Byte>, i: nat, args: seq<Arg>, next: nat)
    requires i + 1 < |fmt| && fmt[i] == Percent && fmt[i + 1] != 0 && next <= |args|
    ensures var c := fmt[i + 1];
      Interp(fmt[i..], args[next..]) ==
        if TakesArg(c) then
          if next == |args| then Printed([], false)
          else
            var e := Expand(c, args[next]);
            if e.None? then Printed([], false) else Prepend(e.value, Interp(fmt[i + 2..], args[next + 1..]))
        else if c == Percent then Prepend([Percent], Interp(fmt[i + 2..], args[next..]))
        else Prepend([Percent, c], Interp(fmt[i + 2..], args[next..]))
  {
    assert fmt[i..][2..] == fmt[i + 2..];
    if next < |args| {
      assert args[next..][1..] == args[next + 1..];
    }
  }

  /** `cprintf`'s loop (lines 66-99): `i` walks the format and `next` is the
      argument pointer. */
  method Render(fmt: seq<Byte>, args: seq<Arg>) returns (out: seq<int>, complete: bool)
    ensures Printed(out, complete) == Interp(fmt, args)
  {
    out := [];
    var i := 0;
    var next := 0;
    while i < |fmt| && fmt[i] != 0
      invariant 0 <= i <= |fmt| && 0 <= next <= |args|
      invariant Interp(fmt, args) == Prepend(out, Interp(fmt[i..], args[next..]))
      decreases |fmt| - i
    {
      var c := fmt[i];
      if c != Percent {
        assert fmt[i..][1..] == fmt[i + 1..];
        PrependTwice(out, [c], Interp(fmt[i + 1..], args[next..]));
        out := out + [c];
        i := i + 1;
        continue;
      }
      if i + 1 == |fmt| || fmt[i + 1] == 0 {
        return out, true;
      }
      UnfoldDirective(fmt, i, args, next);
      i := i + 1;
      c := fmt[i];
      var text: seq<int>;
      if TakesArg(c) {
        if next == |args| {
          return out, false;
        }
        var a := args[next];
        if c == LetterS {
          if a.Num? {
            return out, false;
          }
          text := if a.s.None? then NullText else CString(a.s.value);
        } else {
          if a.Str? {
            return out, false;
          }
          text := PrintInt(a.w, if c == LetterD then Dec else Hex, c == LetterD);
        }
        next := next + 1;
      } else if c == Percent {
        text := [Percent];
      } else {
        text := [Percent, c];
      }
      PrependTwice(out, text, Interp(fmt[i + 1..], args[next..]));
      out := out + text;
      i := i + 1;
    }
    return out, true;
  }

  /** Every code is a `char` value or a byte. */
  predicate CharCodes(s: seq<int>) {
    forall i :: 0 <= i < |s| ==> -128 <= s[i] < 256
  }

  lemma CharCodesJoin(a: seq<int>, b: seq<int>)
    requires CharCodes(a) && CharCodes(b)
    ensures CharCodes(a + b)
  {
  }

  lemma {:induction false} NumeralCodes(x: nat, r: Radix)
    ensures CharCodes(Numeral(x, r))
    decreases x
  {
    DivMod(x, r);
    if x >= Size(r) {
      NumeralCodes(Quot(x, r), r);
      CharCodesJoin(Numeral(Quot(x, r), r), [DigitChar(Rem(x, r))]);
    }
  }

  /** `cprintf` only ever hands `consputc` character codes, never the
      display's BACKSPACE code. */
  lemma {:induction false} InterpRange(fmt: seq<Byte>, args: seq<Arg>)
    ensures CharCodes(Interp(fmt, args).out)
    decreases |fmt|
  {
    if fmt == [] || fmt[0] == 0 {
    } else if fmt[0] != Percent {
      InterpRange(fmt[1..], args);
      CharCodesJoin([fmt[0] as int], Interp(fmt[1..], args).out);
    } else if |fmt| == 1 || fmt[1] == 0 {
    } else if TakesArg(fmt[1]) {
      if args != [] && Expand(fmt[1], args[0]).Some? {
        var e := Expand(fmt[1], args[0]).value;
        if args[0].Num? {
          NumeralCodes(Magnitude(args[0].w, fmt[1] == LetterD), if fmt[1] == LetterD then Dec else Hex);
        }
        assert CharCodes(e);
        InterpRange(fmt[2..], args[1..]);
        CharCodesJoin(e, Interp(fmt[2..], args[1..]).out);
      }
    } else {
      InterpRange(fmt[2..], args);
      CharCodesJoin(if fmt[1] == Percent then [Percent] else [Percent, fmt[1] as int], Interp(fmt[2..], args).out);
    }
  }
}

=== FILE: kbd.dfy ===
/** The keyboard's shift-state machine (kernel/kbd.c lines 6-47). The
    scancode tables and the modifier bits live in kbd.h, which is not part
    of this model, so they are parameters: a `Layout`. */
module Kbd {
  import opened Base

  const E0Prefix := 0xE0
  const Released := 0x80

  /** The tables and bit constants of kbd.h. */
  datatype Layout = Layout(
    normal: seq<Byte>, shifted: seq<Byte>, ctl: seq<Byte>, alt: seq<Byte>,
    shiftcode: seq<bv8>, togglecode: seq<bv8>,
    shiftBit: bv8, ctlBit: bv8, altBit: bv8, capsBit: bv8, e0Bit: bv8)

  /** Tables cover every scancode, and the three modifier bits select one of
      the eight `charcode` entries. */
  predicate Wf(l: Layout) {
    && |l.normal| == 256 && |l.shifted| == 256 && |l.ctl| == 256 && |l.alt| == 256
    && |l.shiftcode| == 256 && |l.togglecode| == 256
    && (l.shiftBit | l.ctlBit | l.altBit) <= 7
  }

  /** The layout kbd.h actually has: SHIFT, CTL, ALT, CAPSLOCK and E0ESC are
      bits 0, 1, 2, 3 and 6. */
  predicate StandardBits(l: Layout) {
    l.shiftBit == 1 && l.ctlBit == 2 && l.altBit == 4 && l.capsBit == 8 && l.e0Bit == 0x40
  }

  /** `charcode[m]` (lines 13-15): normal, shift, ctl, ctl, alt, shift, ctl,
      ctl. */
  function CharCode(l: Layout, m: bv8): (map_: seq<Byte>)
    requires Wf(l) && m <= 7
    ensures |map_| == 256
  {
    [l.normal, l.shifted, l.ctl, l.ctl, l.alt, l.shifted, l.ctl, l.ctl][m as int]
  }

  /** With caps lock on, letters swap case (lines 40-45). */
  function SwapCase(c: int): (d: int)
    ensures 97 <= c <= 122 ==> d == c - 32
    ensures 65 <= c <= 90 ==> d == c + 32
    ensures !(65 <= c <= 90 || 97 <= c <= 122) ==> d == c
  {
    if 97 <= c <= 122 then c - 32
    else if 65 <= c <= 90 then c + 32
    else c
  }

  /** The code returned and the shift state kept for the next call. */
  datatype Key = Key(code: int, shift: bv8)

  /** `kbdgetc`: `data` is None when the status port says no byte is
      waiting (lines 18-20). */
  function GetC(l: Layout, shift: bv8, data: Option<Byte>): (k: Key)
    requires Wf(l)
    ensures -1 <= k.code < 256
    ensures data.None? ==> k == Key(-1, shift)
    ensures data == Some(E0Prefix) ==> k == Key(0, shift | l.e0Bit)
    ensures data.Some? && data.value != E0Prefix && data.value >= Released ==>
      k == Key(0, ReleaseShift(l, shift, data.value))
    ensures data.Some? && data.value < Released ==> 0 <= k.code && k.shift == PressShift(l, shift, data.value)
  {
    if data.None? then Key(-1, shift)
    else
      var b := data.value;
      if b == E0Prefix then Key(0, shift | l.e0Bit)
      else if b >= Released then Key(0, ReleaseShift(l, shift, b))
      else Press(l, shift, b)
  }

  /** The table index of a release: its high bit is kept only after an E0
      prefix (line 28). */
  function ReleasedKey(l: Layout, shift: bv8, b: Byte): (key: Byte)
    requires b >= Released
    ensures shift & l.e0Bit != 0 ==> key == b
    ensures shift & l.e0Bit == 0 ==> key == b - Released
  {
    if shift & l.e0Bit != 0 then b else b - Released
  }

  /** A release clears the key's modifier bits and any pending E0 prefix
      (line 29). */
  function ReleaseShift(l: Layout, shift: bv8, b: Byte): bv8
    requires Wf(l) && b >= Released
  {
    Clear(shift, l.shiftcode[ReleasedKey(l, shift, b)], l.e0Bit)
  }

  /** `s` without the bits of `sc` and `e`. */
  function Clear(s: bv8, sc: bv8, e: bv8): bv8 {
    s & !(sc | e)
  }

  /** `s` with the bits of `sc` set and those of `tc` flipped. */
  function Modify(s: bv8, sc: bv8, tc: bv8): bv8 {
    (s | sc) ^ tc
  }

  /** `s` with a pending E0 prefix consumed. */
  function Unescape(s: bv8, e: bv8): bv8 {
    if s & e != 0 then s & !e else s
  }

  /** The table index of a press: the high bit is set after an E0 prefix
      (lines 31-35). */
  function PressedKey(l: Layout, shift: bv8, b: Byte): (key: Byte)
    requires b < Released
    ensures shift & l.e0Bit != 0 ==> key == b + Released
    ensures shift & l.e0Bit == 0 ==> key == b
  {
    if shift & l.e0Bit != 0 then b + Released else b
  }

  /** A press consumes a pending E0 prefix, then sets the key's modifier
      bits and flips its toggle bits (lines 31-38). */
  function PressShift(l: Layout, shift: bv8, b: Byte): bv8
    requires Wf(l) && b < Released
  {
    var key := PressedKey(l, shift, b);
    Modify(Unescape(shift, l.e0Bit), l.shiftcode[key], l.togglecode[key])
  }

  /** A key press: the entry of the map the modifiers select, with caps
      lock applied (lines 39-46). */
  function Press(l: Layout, shift: bv8, b: Byte): (k: Key)
    requires Wf(l) && b < Released
    ensures 0 <= k.code < 256 && k.shift == PressShift(l, shift, b)
  {
    var s := PressShift(l, shift, b);
    var m := s & (l.ctlBit | l.shiftBit | l.altBit);
    assert m <= 7 by { MaskBound(s, l.ctlBit | l.shiftBit | l.altBit); }
    Key(CapsAdjust(l, s, CharCode(l, m)[PressedKey(l, shift, b)]), s)
  }

  /** What caps lock makes of a table entry under shift state `s`. */
  function CapsAdjust(l: Layout, s: bv8, c: int): (d: int)
    ensures 0 <= c < 256 ==> 0 <= d < 256
  {
    if s & l.capsBit != 0 then SwapCase(c) else c
  }

  /** With the kbd.h bits, the map follows the modifiers held after the
      press: control wins, alt counts only on its own, then shift, else the
      plain map (lines 11-15, 39). */
  lemma PressChoosesMap(l: Layout, shift: bv8, b: Byte)
    requires Wf(l) && StandardBits(l) && b < Released
    ensures var k := Press(l, shift, b);
      var key := PressedKey(l, shift, b);
      && (k.shift & 2 != 0 ==> k.code == CapsAdjust(l, k.shift, l.ctl[key]))
      && (k.shift & 7 == 4 ==> k.code == CapsAdjust(l, k.shift, l.alt[key]))
      && (k.shift & 2 == 0 && k.shift & 1 != 0 ==> k.code == CapsAdjust(l, k.shift, l.shifted[key]))
      && (k.shift & 7 == 0 ==> k.code == CapsAdjust(l, k.shift, l.normal[key]))
  {
    var k := Press(l, shift, b);
    var m := k.shift & 7;
    assert m == k.shift & (l.ctlBit | l.shiftBit | l.altBit);
    assert k.shift & 2 != 0 <==> m == 2 || m == 3 || m == 6 || m == 7;
    assert k.shift & 2 == 0 && k.shift & 1 != 0 <==> m == 1 || m == 5;
  }

  /** Caps lock applied twice changes nothing. */
  lemma SwapCaseTwice(c: int)
    ensures SwapCase(SwapCase(c)) == c
  {
  }

  /** Pressing and releasing a plain modifier key (one with no toggle bits,
      whose bits were clear) leaves the shift state as it was. The release
      code must not be the E0 prefix itself. */
  lemma PressReleaseRestores(l: Layout, shift: bv8, b: Byte)
    requires Wf(l) && b < Released && b + Released != E0Prefix && shift & l.e0Bit == 0
    requires l.togglecode[b] == 0 && shift & l.shiftcode[b] == 0
    requires l.shiftcode[b] & l.e0Bit == 0
    ensures var s := GetC(l, shift, Some(b)).shift;
      GetC(l, s, Some(b + Released)).shift == shift
  {
    SetBits(shift, l.shiftcode[b], l.e0Bit);
    PlainPress(l, shift, b);
    PlainRelease(l, shift, shift | l.shiftcode[b], b);
  }

  /** Pressing a plain modifier sets its bits. */
  lemma PlainPress(l: Layout, shift: bv8, b: Byte)
    requires Wf(l) && b < Released && shift & l.e0Bit == 0
    requires l.togglecode[b] == 0 && shift & l.shiftcode[b] == 0
    requires l.shiftcode[b] & l.e0Bit == 0
    ensures PressShift(l, shift, b) == shift | l.shiftcode[b]
  {
    SetBits(shift, l.shiftcode[b], l.e0Bit);
    PressSets(l, shift, b);
  }

  /** Without a pending E0 prefix, a press sets and flips the bits of the
      key itself. */
  lemma PressSets(l: Layout, s: bv8, b: Byte)
    requires Wf(l) && b < Released && s & l.e0Bit == 0
    ensures PressShift(l, s, b) == Modify(s, l.shiftcode[b], l.togglecode[b])
  {
    assert PressedKey(l, s, b) == b;
  }

  /** Releasing it clears them again. */
  lemma PlainRelease(l: Layout, shift: bv8, s: bv8, b: Byte)
    requires Wf(l) && b < Released && b + Released != E0Prefix && shift & l.e0Bit == 0
    requires shift & l.shiftcode[b] == 0 && l.shiftcode[b] & l.e0Bit == 0
    requires s == shift | l.shiftcode[b]
    ensures ReleaseShift(l, s, b + Released) == shift
  {
    SetBits(shift, l.shiftcode[b], l.e0Bit);
    ReleaseClears(l, s, b);
  }

  /** Without a pending E0 prefix, a release clears the bits of the key
      with its high bit dropped. */
  lemma ReleaseClears(l: Layout, s: bv8, b: Byte)
    requires Wf(l) && b < Released && s & l.e0Bit == 0
    ensures ReleaseShift(l, s, b + Released) == Clear(s, l.shiftcode[b], l.e0Bit)
  {
    assert ReleasedKey(l, s, b + Released) == b;
  }

  /** Setting bits that were clear and then clearing them again. */
  lemma SetBits(x: bv8, y: bv8, e: bv8)
    requires x & y == 0 && x & e == 0 && y & e == 0
    ensures Unescape(x, e) == x
    ensures Modify(x, y, 0) == x | y && (x | y) & e == 0
    ensures Clear(x | y, y, e) == x
  {
  }

  /** Pressing and releasing a toggle key flips its toggle bits. */
  lemma ToggleOnce(l: Layout, shift: bv8, b: Byte)
    requires Wf(l) && b < Released && b + Released != E0Prefix && shift & l.e0Bit == 0
    requires l.shiftcode[b] == 0 && l.togglecode[b] & l.e0Bit == 0
    ensures GetC(l, shift, Some(b)).shift == shift ^ l.togglecode[b]
    ensures Tap(l, shift, b) == shift ^ l.togglecode[b]
    ensures (shift ^ l.togglecode[b]) & l.e0Bit == 0
  {
    FlipBits(shift, l.togglecode[b], l.e0Bit);
    TogglePress(l, shift, b);
    ToggleRelease(l, shift ^ l.togglecode[b], b);
  }

  /** Pressing a toggle key flips its bits. */
  lemma TogglePress(l: Layout, shift: bv8, b: Byte)
    requires Wf(l) && b < Released && shift & l.e0Bit == 0
    requires l.shiftcode[b] == 0 && l.togglecode[b] & l.e0Bit == 0
    ensures PressShift(l, shift, b) == shift ^ l.togglecode[b]
  {
    FlipBits(shift, l.togglecode[b], l.e0Bit);
    PressSets(l, shift, b);
  }

  /** Releasing it changes nothing. */
  lemma ToggleRelease(l: Layout, s: bv8, b: Byte)
    requires Wf(l) && b < Released && b + Released != E0Prefix && s & l.e0Bit == 0
    requires l.shiftcode[b] == 0
    ensures ReleaseShift(l, s, b + Released) == s
  {
    ReleaseClears(l, s, b);
    assert Clear(s, 0, l.e0Bit) == s;
  }

  /** Flipping bits away from the E0 bit. */
  lemma FlipBits(x: bv8, t: bv8, e: bv8)
    requires x & e == 0 && t & e == 0
    ensures Unescape(x, e) == x
    ensures Modify(x, 0, t) == x ^ t && (x ^ t) & e == 0
    ensures Clear(x ^ t, 0, e) == x ^ t
    ensures (x ^ t) ^ t == x
  {
  }

  /** The shift state after key `b` is pressed and released. */
  function Tap(l: Layout, shift: bv8, b: Byte): bv8
    requires Wf(l) && b < Released
  {
    GetC(l, GetC(l, shift, Some(b)).shift, Some(b + Released)).shift
  }

  /** A toggle key (caps lock) pressed and released twice returns the shift
      state to where it was: the first tap flips its bits, the second flips
      them back. */
  lemma ToggleTwice(l: Layout, shift: bv8, b: Byte)
    requires Wf(l) && b < Released && b + Released != E0Prefix && shift & l.e0Bit == 0
    requires l.shiftcode[b] == 0 && l.togglecode[b] & l.e0Bit == 0
    ensures Tap(l, shift, b) == shift ^ l.togglecode[b]
    ensures Tap(l, Tap(l, shift, b), b) == shift
  {
    ToggleOnce(l, shift, b);
    ToggleBack(l, Tap(l, shift, b), shift, b);
  }

  lemma ToggleBack(l: Layout, s: bv8, shift: bv8, b: Byte)
    requires Wf(l) && b < Released && b + Released != E0Prefix && shift & l.e0Bit == 0
    requires l.shiftcode[b] == 0 && l.togglecode[b] & l.e0Bit == 0
    requires s == shift ^ l.togglecode[b] && s & l.e0Bit == 0
    ensures Tap(l, s, b) == shift
  {
    ToggleOnce(l, s, b);
    FlipBits(shift, l.togglecode[b], l.e0Bit);
  }

  /** An E0 prefix is remembered by exactly one following press, which reads
      the escaped half of the tables. */
  lemma EscapeThenPress(l: Layout, shift: bv8, b: Byte)
    requires Wf(l) && b < Released && shift & l.e0Bit == 0 && l.e0Bit != 0
    requires l.shiftcode[b + Released] & l.e0Bit == 0 && l.togglecode[b + Released] & l.e0Bit == 0
    ensures var s := GetC(l, shift, Some(E0Prefix)).shift;
      && GetC(l, shift, Some(E0Prefix)).code == 0
      && PressedKey(l, s, b) == b + Released
      && GetC(l, s, Some(b)).shift & l.e0Bit == 0
  {
    assert GetC(l, shift, Some(E0Prefix)) == Key(0, shift | l.e0Bit);
    EscapedPress(l, shift, shift | l.e0Bit, b);
  }

  /** The press after the prefix, from the state `s` the prefix left. */
  lemma EscapedPress(l: Layout, shift: bv8, s: bv8, b: Byte)
    requires Wf(l) && b < Released && shift & l.e0Bit == 0 && l.e0Bit != 0 && s == shift | l.e0Bit
    requires l.shiftcode[b + Released] & l.e0Bit == 0 && l.togglecode[b + Released] & l.e0Bit == 0
    ensures PressedKey(l, s, b) == b + Released
    ensures GetC(l, s, Some(b)).shift & l.e0Bit == 0
  {
    EscapeBits(shift, l.e0Bit);
    var sc := l.shiftcode[b + Released];
    var tc := l.togglecode[b + Released];
    assert PressShift(l, s, b) == Modify(shift, sc, tc);
    ModifyKeepsClear(shift, sc, tc, l.e0Bit);
  }

  lemma EscapeBits(x: bv8, e: bv8)
    requires x & e == 0 && e != 0
    ensures (x | e) & e != 0 && Unescape(x | e, e) == x
  {
  }

  lemma ModifyKeepsClear(x: bv8, sc: bv8, tc: bv8, e: bv8)
    requires x & e == 0 && sc & e == 0 && tc & e == 0
    ensures Modify(x, sc, tc) & e == 0
  {
  }

  lemma MaskBound(s: bv8, mask: bv8)
    requires mask <= 7
    ensures s & mask <= 7
  {
  }
}

=== FILE: ring.dfy ===
/** The per-terminal input rings of the console (kernel/console.c lines
    278-377): 128 bytes addressed modulo their size by three unbounded
    indices — `r` (next byte a reader takes), `w` (end of the committed
    lines) and `e` (end of what has been typed). */
module LineDiscipline {
  import opened Base
  import Cga

  const InputBuf := 128
  const CtrlD := 4
  const CtrlH := 8
  const CtrlP := 16
  const CtrlU := 21
  const Delete := 0x7f
  const Return := 13

  datatype Ring = Ring(buf: seq<Byte>, r: nat, w: nat, e: nat)

  /** Read, write and edit indices in order, at most a buffer apart. */
  predicate Wf(q: Ring) {
    |q.buf| == InputBuf && q.r <= q.w <= q.e <= q.r + InputBuf
  }

  /** The byte at unbounded index `j`. */
  function At(buf: seq<Byte>, j: nat): Byte
    requires |buf| == InputBuf
  {
    buf[j % InputBuf]
  }

  /** No newline among the typed bytes not yet committed. */
  predicate NoPendingNewline(q: Ring)
    requires Wf(q)
  {
    forall j :: q.w <= j < q.e ==> At(q.buf, j) != Cga.Newline
  }

  /** The bytes at unbounded indices `from` up to `to`. */
  function Slice(buf: seq<Byte>, from: nat, to: nat): (s: seq<Byte>)
    requires |buf| == InputBuf && from <= to
    ensures |s| == to - from
    ensures forall j :: from <= j < to ==> (s[j - from] == At(buf, j))
  {
    if from == to then [] else Slice(buf, from, to - 1) + [At(buf, to - 1)]
  }

  /** The committed, unread bytes of `q`. */
  function Unread(q: Ring): (s: seq<Byte>)
    requires Wf(q)
  {
    Slice(q.buf, q.r, q.w)
  }

  /** A ring as the zero-initialised array leaves it. */
  function EmptyRing(): (q: Ring)
    ensures Wf(q) && q.r == q.w == q.e && NoPendingNewline(q)
  {
    Ring(seq(InputBuf, _ => 0), 0, 0, 0)
  }

  /** A ring after an edit, with the codes to echo in order. */
  datatype Edited = Edited(ring: Ring, echo: seq<int>)

  /** Kill-line (lines 307-313): rub out typed bytes back to the commit
      point or to a newline, echoing one rubout per byte. */
  function KillLine(q: Ring): (x: Edited)
    requires Wf(q)
    ensures Wf(x.ring) && x.ring == q.(e := x.ring.e)
    ensures q.w <= x.ring.e <= q.e
    ensures x.echo == seq(q.e - x.ring.e, _ => Cga.Backspace)
    ensures x.ring.e == q.w || At(q.buf, x.ring.e - 1) == Cga.Newline
    ensures forall j :: x.ring.e <= j < q.e ==> At(q.buf, j) != Cga.Newline
    decreases q.e - q.w
  {
    if q.e != q.w && At(q.buf, q.e - 1) != Cga.Newline then
      var x := KillLine(q.(e := q.e - 1));
      Edited(x.ring, [Cga.Backspace] + x.echo)
    else
      Edited(q, [])
  }

  /** Backspace or delete (lines 314-319): rub out one typed byte, if any. */
  function Rubout(q: Ring): (x: Edited)
    requires Wf(q)
    ensures Wf(x.ring) && x.ring == q.(e := x.ring.e)
    ensures q.e != q.w ==> x.ring.e == q.e - 1 && x.echo == [Cga.Backspace]
    ensures q.e == q.w ==> x == Edited(q, [])
  {
    if q.e != q.w then Edited(q.(e := q.e - 1), [Cga.Backspace]) else Edited(q, [])
  }

  /** Carriage return is read as newline. */
  function Normalise(c: Byte): Byte {
    if c == Return then Cga.Newline else c
  }

  /** An ordinary byte (lines 320-330): stored and echoed unless it is NUL or
      the ring is full; a newline, ^D or a full ring commits the line. */
  function Insert(q: Ring, c: Byte): (x: Edited)
    requires Wf(q)
    ensures Wf(x.ring) && x.ring.r == q.r
    ensures c == 0 || q.e - q.r == InputBuf ==> x == Edited(q, [])
    ensures c != 0 && q.e - q.r < InputBuf ==>
      && x.ring.e == q.e + 1
      && x.ring.buf == q.buf[q.e % InputBuf := Normalise(c)]
      && x.echo == [Normalise(c)]
      && x.ring.w == if Normalise(c) == Cga.Newline || Normalise(c) == CtrlD || x.ring.e == q.r + InputBuf
                     then x.ring.e else q.w
  {
    if c != 0 && q.e - q.r < InputBuf then
      var b := Normalise(c);
      var q' := q.(buf := q.buf[q.e % InputBuf := b], e := q.e + 1);
      if b == Cga.Newline || b == CtrlD || q'.e == q'.r + InputBuf then
        Edited(q'.(w := q'.e), [b])
      else
        Edited(q', [b])
    else
      Edited(q, [])
  }

  /** Why a pass of the reader's loop stopped: the caller's count was
      reached, a newline was copied, a ^D was met, or the ring ran dry. */
  datatype Stop = Filled | Line | Eof | Starved

  /** `k` bytes copied from index `r` on, stopping for reason `stop`, is a
      pass the reader's loop (lines 351-373) can make with `n` wanted: every
      byte copied is neither ^D nor, except the last, a newline, and the
      reason is the first of the loop's exits that applies. */
  predicate Passes(buf: seq<Byte>, r: nat, w: nat, n: nat, k: nat, stop: Stop)
    requires |buf| == InputBuf
  {
    && r + k <= w && k <= n
    && (forall j :: r <= j < r + k ==> At(buf, j) != CtrlD)
    && (forall j :: r <= j < r + k - 1 ==> At(buf, j) != Cga.Newline)
    && (stop != Line ==> k == 0 || At(buf, r + k - 1) != Cga.Newline)
    && match stop
       case Filled => k == n
       case Line => 0 < k && At(buf, r + k - 1) == Cga.Newline
       case Starved => k < n && r + k == w
       case Eof => k < n && r + k < w && At(buf, r + k) == CtrlD
  }

  /** How many committed bytes the reader's loop copies from index `r` on,
      with `n` still wanted, and why it stops. */
  function Scan(buf: seq<Byte>, r: nat, w: nat, n: nat): (s: (nat, Stop))
    requires |buf| == InputBuf && r <= w
    ensures Passes(buf, r, w, n, s.0, s.1)
    decreases n
  {
    if n == 0 then (0, Filled)
    else if r == w then (0, Starved)
    else if At(buf, r) == CtrlD then (0, Eof)
    else if At(buf, r) == Cga.Newline then (1, Line)
    else
      var s := Scan(buf, r + 1, w, n - 1);
      (s.0 + 1, s.1)
  }

  /** The pass is determined: whatever the loop could have done, it did what
      `Scan` says. */
  lemma {:induction false} ScanUnique(buf: seq<Byte>, r: nat, w: nat, n: nat, k: nat, stop: Stop)
    requires |buf| == InputBuf && r <= w
    requires Passes(buf, r, w, n, k, stop)
    ensures Scan(buf, r, w, n) == (k, stop)
    decreases n
  {
    if n == 0 || r == w {
    } else if At(buf, r) == CtrlD {
    } else if At(buf, r) == Cga.Newline {
    } else {
      assert k > 0;
      ScanUnique(buf, r + 1, w, n - 1, k - 1, stop);
    }
  }

  datatype Taken = Taken(ring: Ring, got: seq<Byte>, stop: Stop)

  /** One pass of the reader's loop: the bytes copied, the ring after it,
      and why it stopped. A ^D is consumed only when it is the first thing
      the call meets (`some` says whether earlier passes copied bytes);
      otherwise it is left for the next read (lines 360-365). */
  function Consume(q: Ring, n: nat, some: bool): (t: Taken)
    requires Wf(q)
    ensures Wf(t.ring) && t.ring == q.(r := t.ring.r)
    ensures t.got == Slice(q.buf, q.r, q.r + |t.got|)
    ensures t.ring.r == q.r + |t.got| + (if t.stop == Eof && !some && t.got == [] then 1 else 0)
    ensures t.stop == Scan(q.buf, q.r, q.w, n).1
    ensures Passes(q.buf, q.r, q.w, n, |t.got|, t.stop)
  {
    var s := Scan(q.buf, q.r, q.w, n);
    var k := s.0;
    var pop := if s.1 == Eof && !some && k == 0 then 1 else 0;
    Taken(q.(r := q.r + k + pop), Slice(q.buf, q.r, q.r + k), s.1)
  }

  /** A slice is its first byte followed by the rest. */
  lemma SliceCons(buf: seq<Byte>, from: nat, to: nat)
    requires |buf| == InputBuf && from < to
    ensures Slice(buf, from, to) == [At(buf, from)] + Slice(buf, from + 1, to)
  {
    var s := Slice(buf, from, to);
    var t := [At(buf, from)] + Slice(buf, from + 1, to);
    assert |s| == |t|;
    forall i | 0 <= i < |s| ensures s[i] == t[i] {
      assert s[(from + i) - from] == At(buf, from + i);
    }
  }

  /** Storing at index `e` leaves the bytes at indices `from` up to `to`
      alone when they all lie within the buffer's span below `e`. */
  lemma {:induction false} SliceFrame(buf: seq<Byte>, from: nat, to: nat, e: nat, b: Byte)
    requires |buf| == InputBuf && from <= to <= e < from + InputBuf
    ensures Slice(buf[e % InputBuf := b], from, to) == Slice(buf, from, to)
  {
    if from < to {
      SliceFrame(buf, from, to - 1, e, b);
      ModApart(to - 1, e);
    }
  }

  /** Indices less than a buffer's length apart name different slots. */
  lemma ModApart(x: nat, e: nat)
    requires x < e < x + InputBuf
    ensures x % InputBuf != e % InputBuf
  {
    var d := e - x;
    assert e == x + d;
    if x % InputBuf + d < InputBuf {
      assert e % InputBuf == x % InputBuf + d;
    } else {
      assert e % InputBuf == x % InputBuf + d - InputBuf;
    }
  }

  /** The bytes at `from` up to `to` then one more. */
  lemma SliceSnoc(buf: seq<Byte>, from: nat, to: nat)
    requires |buf| == InputBuf && from <= to
    ensures Slice(buf, from, to + 1) == Slice(buf, from, to) + [At(buf, to)]
  {
  }

  /** An inserted byte that does not commit leaves the reader's view alone. */
  lemma InsertPending(q: Ring, c: Byte)
    requires Wf(q)
    ensures Insert(q, c).ring.w == q.w ==> Unread(Insert(q, c).ring) == Unread(q)
  {
    var x := Insert(q, c);
    if c != 0 && q.e - q.r < InputBuf && x.ring.w == q.w {
      SliceFrame(q.buf, q.r, q.w, q.e, Normalise(c));
    }
  }

  /** A committing byte hands the reader everything typed since the last
      commit, followed by that byte (lines 324-328). */
  lemma InsertCommits(q: Ring, c: Byte)
    requires Wf(q) && c != 0 && q.e - q.r < InputBuf
    requires Normalise(c) == Cga.Newline || Normalise(c) == CtrlD || q.e + 1 == q.r + InputBuf
    ensures Unread(Insert(q, c).ring) == Slice(q.buf, q.r, q.e) + [Normalise(c)]
  {
    var b := Normalise(c);
    var buf' := q.buf[q.e % InputBuf := b];
    SliceFrame(q.buf, q.r, q.e, q.e, b);
    SliceSnoc(buf', q.r, q.e);
  }

  /** Editing keeps a line free of newlines until it is committed. */
  lemma InsertKeepsNoPending(q: Ring, c: Byte)
    requires Wf(q)
    ensures NoPendingNewline(q) ==> NoPendingNewline(Insert(q, c).ring)
  {
    var x := Insert(q, c);
    if NoPendingNewline(q) && c != 0 && q.e - q.r < InputBuf && x.ring.w == q.w {
      assert x.ring.buf == q.buf[q.e % InputBuf := Normalise(c)] && x.ring.e == q.e + 1;
      forall j | q.w <= j < x.ring.e
        ensures At(x.ring.buf, j) != Cga.Newline
      {
        if j < q.e {
          assert j % InputBuf != q.e % InputBuf;
          assert At(q.buf, j) != Cga.Newline;
        } else {
          assert x.ring.buf[q.e % InputBuf] == Normalise(c) != Cga.Newline;
        }
      }
    }
  }

  /** With no newline pending, kill-line rubs out the whole uncommitted line. */
  lemma KillLineClears(q: Ring)
    requires Wf(q) && NoPendingNewline(q)
    ensures KillLine(q).ring == q.(e := q.w)
    ensures |KillLine(q).echo| == q.e - q.w
  {
  }

  /** A reader that copied bytes and then met ^D leaves it in the ring, so
      the next read returns nothing and consumes it (lines 360-365). */
  lemma EofAfterBytes(q: Ring, n: nat, m: nat)
    requires Wf(q) && 0 < m
    requires Consume(q, n, false).stop == Eof && Consume(q, n, false).got != []
    ensures var q' := Consume(q, n, false).ring;
      && Consume(q', m, false).got == []
      && Consume(q', m, false).stop == Eof
      && Consume(q', m, false).ring == q'.(r := q'.r + 1)
  {
    var t := Consume(q, n, false);
    var k := |t.got|;
    assert Passes(q.buf, q.r, q.w, n, k, Eof);
    ScanUnique(t.ring.buf, t.ring.r, t.ring.w, m, 0, Eof);
  }

  /** `a` is a prefix of `b`. */
  predicate IsPrefix(a: seq<Byte>, b: seq<Byte>) {
    |a| <= |b| && b[..|a|] == a
  }

  /** A slice is a prefix of any longer slice from the same start. */
  lemma SlicePrefix(buf: seq<Byte>, from: nat, mid: nat, to: nat)
    requires |buf| == InputBuf && from <= mid <= to
    ensures IsPrefix(Slice(buf, from, mid), Slice(buf, from, to))
  {
    var a := Slice(buf, from, mid);
    var b := Slice(buf, from, to);
    assert forall i :: 0 <= i < |a| ==> b[i] == At(buf, from + i) == a[i];
  }

  /** One byte of the line discipline (lines 299-331), for every code other
      than a terminal switch and ^P: kill-line, rubout, or an ordinary byte. */
  function Edit(q: Ring, c: Byte): (x: Edited)
    requires Wf(q)
    ensures Wf(x.ring) && x.ring.r == q.r && q.w <= x.ring.w
  {
    if c == CtrlU then KillLine(q)
    else if c == CtrlH || c == Delete then Rubout(q)
    else Insert(q, c)
  }

  /** Editing never changes what a reader has yet to take, and keeps the
      line being edited free of newlines. */
  lemma EditKeepsCommitted(q: Ring, c: Byte)
    requires Wf(q)
    ensures IsPrefix(Unread(q), Unread(Edit(q, c).ring))
    ensures NoPendingNewline(q) ==> NoPendingNewline(Edit(q, c).ring)
  {
    if c != CtrlU && c != CtrlH && c != Delete {
      InsertKeepsNoPending(q, c);
      InsertKeepsUnread(q, c);
    } else {
      assert Edit(q, c).ring == q.(e := Edit(q, c).ring.e);
    }
  }

  /** An inserted byte never changes what a reader has yet to take. */
  lemma InsertKeepsUnread(q: Ring, c: Byte)
    requires Wf(q)
    ensures IsPrefix(Unread(q), Unread(Insert(q, c).ring))
  {
    var x := Insert(q, c);
    if x.ring.w == q.w {
      InsertPending(q, c);
    } else {
      InsertCommits(q, c);
      SlicePrefix(q.buf, q.r, q.w, q.e);
      assert Unread(x.ring)[..|Unread(q)|] == Slice(q.buf, q.r, q.e)[..|Unread(q)|];
    }
  }

  /** Bytes typed one after another, with everything they echo. */
  function Type(q: Ring, cs: seq<Byte>): (x: Edited)
    requires Wf(q)
    ensures Wf(x.ring) && x.ring.r == q.r
    decreases |cs|
  {
    if cs == [] then Edited(q, [])
    else
      var x := Edit(q, cs[0]);
      var y := Type(x.ring, cs[1..]);
      Edited(y.ring, x.echo + y.echo)
  }

  /** A byte the line discipline simply stores and echoes. */
  predicate Ordinary(c: Byte) {
    c != 0 && c != CtrlD && c != CtrlH && c != CtrlU && c != Delete
      && c != Return && c != Cga.Newline
  }

  /** A stored byte extends the typed bytes by one. */
  lemma InsertAppends(q: Ring, c: Byte)
    requires Wf(q) && c != 0 && q.e - q.r < InputBuf
    ensures Slice(Insert(q, c).ring.buf, q.r, q.e + 1) == Slice(q.buf, q.r, q.e) + [Normalise(c)]
  {
    var b := Normalise(c);
    SliceFrame(q.buf, q.r, q.e, q.e, b);
    SliceSnoc(q.buf[q.e % InputBuf := b], q.r, q.e);
  }

  /** Typing ordinary bytes into a ring with room appends them to the line
      being edited, echoes them, and commits nothing. */
  lemma {:induction false} TypeOrdinary(q: Ring, s: seq<Byte>)
    requires Wf(q) && q.e + |s| < q.r + InputBuf
    requires forall i :: 0 <= i < |s| ==> Ordinary(s[i])
    ensures var x := Type(q, s);
      && x.ring.w == q.w && x.ring.e == q.e + |s|
      && Slice(x.ring.buf, q.r, x.ring.e) == Slice(q.buf, q.r, q.e) + s
      && x.echo == s
    decreases |s|
  {
    if s != [] {
      var c := s[0];
      OrdinaryStep(q, c);
      var q1 := Insert(q, c).ring;
      TypeOrdinary(q1, s[1..]);
      var y := Type(q1, s[1..]);
      TypeCons(q, s);
      assert Type(q, s) == Edited(y.ring, [c] + y.echo);
      AppendFirst([], s);
      assert [] + s == s && [] + [c] == [c];
      AppendFirst(Slice(q.buf, q.r, q.e), s);
    }
  }

  /** Typing a nonempty string is typing its first byte, then the rest. */
  lemma TypeCons(q: Ring, s: seq<Byte>)
    requires Wf(q) && s != []
    ensures var x := Edit(q, s[0]); var y := Type(x.ring, s[1..]);
      Type(q, s) == Edited(y.ring, x.echo + y.echo)
  {
  }

  /** An ordinary byte typed into a ring with room is stored, echoed and
      left uncommitted. */
  lemma OrdinaryStep(q: Ring, c: Byte)
    requires Wf(q) && Ordinary(c) && q.e + 1 < q.r + InputBuf
    ensures Edit(q, c) == Insert(q, c) && Insert(q, c).echo == [c]
    ensures var q1 := Insert(q, c).ring;
      && q1.r == q.r && q1.w == q.w && q1.e == q.e + 1
      && Slice(q1.buf, q.r, q1.e) == Slice(q.buf, q.r, q.e) + [c]
  {
    InsertAppends(q, c);
  }

  /** Typing `a` then `b` is typing `a + b`. */
  lemma {:induction false} TypeAppend(q: Ring, a: seq<Byte>, b: seq<Byte>)
    requires Wf(q)
    ensures var x := Type(q, a); var y := Type(x.ring, b);
      Type(q, a + b) == Edited(y.ring, x.echo + y.echo)
    decreases |a|
  {
    if a == [] {
      assert a + b == b;
      assert Type(q, a) == Edited(q, []);
      assert [] + Type(q, b).echo == Type(q, b).echo;
    } else {
      var x := Edit(q, a[0]);
      assert (a + b)[0] == a[0] && (a + b)[1..] == a[1..] + b;
      TypeCons(q, a);
      TypeCons(q, a + b);
      TypeAppend(x.ring, a[1..], b);
      var u := Type(x.ring, a[1..]);
      var v := Type(u.ring, b);
      AppendAssoc(x.echo, u.echo, v.echo);
    }
  }

  /** A line typed into an idle ring and ended with newline (or carriage
      return) is committed and echoed as typed. */
  lemma TypedLineCommits(q: Ring, s: seq<Byte>)
    requires Wf(q) && q.r == q.w == q.e && |s| + 1 < InputBuf
    requires forall i :: 0 <= i < |s| ==> Ordinary(s[i])
    ensures var x := Type(q, s + [Cga.Newline]);
      && Unread(x.ring) == s + [Cga.Newline]
      && x.echo == s + [Cga.Newline]
      && x.ring.w == x.ring.e
  {
    TypeAppend(q, s, [Cga.Newline]);
    TypeOrdinary(q, s);
    var x1 := Type(q, s).ring;
    assert Slice(q.buf, q.r, q.e) == [];
    assert Slice(x1.buf, x1.r, x1.e) == s;
    NewlineCommits(x1, s);
  }

  /** A newline typed after the pending bytes `s` commits them with it. */
  lemma NewlineCommits(q: Ring, s: seq<Byte>)
    requires Wf(q) && q.e - q.r < InputBuf && Slice(q.buf, q.r, q.e) == s
    ensures var x := Type(q, [Cga.Newline]);
      && Unread(x.ring) == s + [Cga.Newline]
      && x.echo == [Cga.Newline]
      && x.ring.w == x.ring.e
  {
    TypeOne(q, Cga.Newline);
    InsertCommits(q, Cga.Newline);
  }

  /** Typing one byte is editing with it. */
  lemma TypeOne(q: Ring, c: Byte)
    requires Wf(q)
    ensures Type(q, [c]) == Edit(q, c)
  {
    var x := Edit(q, c);
    assert [c][1..] == [];
    assert x.echo + [] == x.echo;
  }

  /** A reader wanting at least a line's worth takes exactly one committed
      line: everything up to and including its newline (lines 366-372). */
  lemma ReadsOneLine(q: Ring, line: seq<Byte>, n: nat, some: bool)
    requires Wf(q) && Unread(q) == line && 0 < |line| <= n
    requires line[|line| - 1] == Cga.Newline
    requires forall i :: 0 <= i < |line| - 1 ==> line[i] != Cga.Newline
    requires forall i :: 0 <= i < |line| ==> line[i] != CtrlD
    ensures Consume(q, n, some) == Taken(q.(r := q.w), line, Line)
  {
    var k := |line|;
    forall j | q.r <= j < q.r + k
      ensures At(q.buf, j) == line[j - q.r]
    {
    }
    assert Passes(q.buf, q.r, q.w, n, k, Line);
    ScanUnique(q.buf, q.r, q.w, n, k, Line);
  }

  /** Typing a line and reading it returns that line. */
  lemma TypedLineIsRead(q: Ring, s: seq<Byte>, n: nat)
    requires Wf(q) && q.r == q.w == q.e && |s| + 1 < InputBuf && |s| < n
    requires forall i :: 0 <= i < |s| ==> Ordinary(s[i])
    ensures var x := Type(q, s + [Cga.Newline]);
      Consume(x.ring, n, false) == Taken(x.ring.(r := x.ring.w), s + [Cga.Newline], Line)
  {
    TypedLineCommits(q, s);
    var line := s + [Cga.Newline];
    OrdinaryLine(s);
    ReadsOneLine(Type(q, line).ring, line, n, false);
  }

  /** Ordinary bytes and a newline make one line without ^D. */
  lemma OrdinaryLine(s: seq<Byte>)
    requires forall i :: 0 <= i < |s| ==> Ordinary(s[i])
    ensures var line := s + [Cga.Newline];
      && line[|line| - 1] == Cga.Newline
      && (forall i :: 0 <= i < |line| - 1 ==> line[i] != Cga.Newline)
      && (forall i :: 0 <= i < |line| ==> line[i] != CtrlD)
  {
    var line := s + [Cga.Newline];
    assert forall i :: 0 <= i < |line| - 1 ==> line[i] == s[i];
  }

  /** A byte string is its first byte appended, then the rest. */
  lemma AppendFirst(a: seq<Byte>, s: seq<Byte>)
    requires s != []
    ensures a + s == (a + [s[0]]) + s[1..]
  {
    assert [s[0]] + s[1..] == s;
  }

  /** Adjacent slices join. */
  lemma {:induction false} SliceJoin(buf: seq<Byte>, a: nat, b: nat, c: nat)
    requires |buf| == InputBuf && a <= b <= c
    ensures Slice(buf, a, c) == Slice(buf, a, b) + Slice(buf, b, c)
  {
    if b < c {
      SliceJoin(buf, a, b, c - 1);
      assert Slice(buf, a, b) + (Slice(buf, b, c - 1) + [At(buf, c - 1)])
        == (Slice(buf, a, b) + Slice(buf, b, c - 1)) + [At(buf, c - 1)];
    } else {
      assert Slice(buf, b, c) == [];
    }
  }
}
